=== FILE: README.md ===
# Content downloader: a Dafny model of the download hook and the URL form

The front end of the content downloader takes a link to a video or audio post
and asks a remote service to fetch it. The user types the link into a form,
which checks and warns as it goes. The form hands the trimmed link, a format
and a quality to the download hook. The hook then works through these steps:

- It cleans the link (Facebook tracking parameters are removed).
- It shows a pending record and posts the request.
- From the reply it reads an immediate result, a job to poll, or a failure.
- It polls the job every five seconds, at most sixty times, and shows the
  progress the job reports.
- It puts the finished record (completed, or failed with a user-facing message)
  at the front of a history list. Entries of that list can be deleted or retried.

This project models that core and proves properties of it:

| file | module | what it holds |
|---|---|---|
| `wrappers.dfy` | `Wrappers` | `Option` |
| `text.dfy` | `Text` | the string built-ins the code relies on: `includes`, `split('/').pop()`, `trim`, and the decimal rendering of a number |
| `urls.dfy` | `Urls` | the part of the platform `URL` object the code uses: parsing, `hostname`, the `searchParams` list, `toString()` |
| `cleaning.dfy` | `Cleaning` | `cleanUrl` |
| `errors.dfy` | `Errors` | `getErrorMessage` |
| `downloads.dfy` | `Downloads` | the download record and the decisions of `startDownload` and `pollDownloadStatus`, as functions of the replies the hook receives |
| `downloader.dfy` | `Downloader` | the hook's state (history, download on show, loading flag) as a class, with the operations that change it |
| `url_input.dfy` | `UrlInput` | the form's state as a class: `validateUrl`, `handleUrlChange`, `handleSubmit`, the select handlers and the rule that disables the submit button |
| `scenarios.dfy` | `Scenarios` | two complete runs worked out on the model |

The network is modelled as input:
- `Reply` is what one `fetch` produced: a rejection with its message, or a
  status with the body text and what `JSON.parse` made of it.
- A submission is given the reply to its POST and the sequence of replies to
  its status requests.
- When that sequence runs out before the job ends, the request it is waiting on
  has not been answered yet. The download then stays on show, still loading.

The pure decisions are specified by functions: `SubmitStep`, `PollStep`,
`PollFrom`, `Submission` and `Settle`. The class methods (`Downloader.Poll`
with its loop, `Submit`, `StartDownload`, `DeleteDownload`, `RetryDownload`)
are proved to leave the state those functions describe. Each method also keeps
the class invariant:
- every history entry is settled;
- history ids are distinct and were handed out earlier;
- the download on show is pending;
- the loading flag says whether something is on show.

## Model

| member | source | states |
|---|---|---|
| `Text.ContainsIff` | src/hooks/useDownloader.ts:36 | `includes` holds exactly when the searched text occurs at some position |
| `Text.ContainsAfterPrefix` | src/hooks/useDownloader.ts:51-70 | a prefix without the first character of the searched text cannot change whether it is found |
| `Text.ContainsSameLength` | src/hooks/useDownloader.ts:51-70 | between texts of equal length, `includes` is equality |
| `Text.AfterLast` | src/hooks/useDownloader.ts:84 | `split('/').pop()` is the suffix after the last `/`: it holds no `/`, and the character before it is a `/` unless it is the whole text |
| `Text.TrimStartCuts` | src/components/UrlInput.tsx:47 | trimming the start removes exactly a prefix of whitespace, up to the first other character |
| `Text.TrimEndCuts` | src/components/UrlInput.tsx:47 | trimming the end removes exactly a suffix of whitespace, back to the last other character |
| `Text.TrimEmpty` | src/components/UrlInput.tsx:47 | `trim()` is empty exactly when every character is whitespace |
| `Text.Trim` | src/components/UrlInput.tsx:47 | `trim()`: the end-trim of the start-trim. `TrimStartCuts`, `TrimEndCuts` and `TrimEmpty` state what it removes |
| `Text.DecimalString` | src/hooks/useDownloader.ts:127 | `${status}` is a non-empty string of decimal digits |
| `Text.DecimalRoundTrip` | src/hooks/useDownloader.ts:127 | reading back the decimal rendering of a number gives the number |
| `Text.DecimalInjective` | src/hooks/useDownloader.ts:127 | distinct statuses render differently |
| `Text.ThreeDigits` | src/hooks/useDownloader.ts:127 | an HTTP status from 100 to 999 renders as three digits |
| `Urls.StripControls` | src/hooks/useDownloader.ts:33 | the parser's stripping of leading and trailing controls and spaces shortens only, and leaves text without them alone |
| `Urls.Parse` | src/hooks/useDownloader.ts:33 | every URL `new URL` accepts is well formed (scheme, non-empty host, path starting with `/`, and a query and fragment without separators or controls) |
| `Urls.Serialize` | src/hooks/useDownloader.ts:43 | `toString()`: scheme, `://`, host, path, then `?query` and `#fragment` when present. `ParseSerialize` proves it the inverse of `Parse` on well-formed URLs |
| `Urls.ParseSerialize` | src/hooks/useDownloader.ts:33-43 | `new URL(u.toString())` gives back every well-formed URL `u` |
| `Urls.ParseQuery` | src/hooks/useDownloader.ts:37-40 | the `searchParams` list of a query without separators has well-formed entries |
| `Urls.SerializeQuery` | src/hooks/useDownloader.ts:43 | the serialised list is empty exactly when the list is, and holds no query separator |
| `Urls.ParamRoundTrip` | src/hooks/useDownloader.ts:37-43 | splitting `name=value` at its first `=` gives back the entry |
| `Urls.QueryRoundTrip` | src/hooks/useDownloader.ts:37-43 | serialising a list of well-formed entries and parsing it again gives the same list |
| `Urls.WithParamsRoundTrip` | src/hooks/useDownloader.ts:37-43 | after `searchParams` is changed, the URL stays well formed and its query reads back as the new list |
| `Urls.QueryParams` | src/hooks/useDownloader.ts:37-40 | the `searchParams` list of a URL: the parsed query, empty without one. `WithParamsRoundTrip` proves it reads back what `WithParams` wrote |
| `Urls.WithParams` | src/hooks/useDownloader.ts:37-40 | the URL after its `searchParams` list changed: the query is the list's serialisation, dropped when empty. `WithParamsRoundTrip` and `WithParamsTwice` state its effect |
| `Urls.DeleteParam` | src/hooks/useDownloader.ts:37 | `searchParams.delete(name)` keeps exactly the entries with another name and keeps them well formed |
| `Cleaning.Hostname` | src/hooks/useDownloader.ts:36 | `hostname` is a prefix of the text after the last `@`: it runs up to the first `:` (the port), or for a bracketed IPv6 address up to and including the first `]`, or to the end when there is no such character |
| `Cleaning.HostnamePlain` | src/hooks/useDownloader.ts:36 | a plain host name is its own `hostname` |
| `Cleaning.IsFacebook` | src/hooks/useDownloader.ts:36 | `hostname.includes('facebook.com')`. `CleanUrlEffect` proves that only such hosts lose query entries |
| `Cleaning.DeleteAll` | src/hooks/useDownloader.ts:37-40 | the deletions applied one after another. `DeleteAllIsKeep` proves them one order-kept filter |
| `Cleaning.StripTracking` | src/hooks/useDownloader.ts:37-40 | the four deletions in source order. `StripTrackingIsKeep` proves they remove exactly the tracking names |
| `Cleaning.Cleaned` | src/hooks/useDownloader.ts:36-41 | the URL object after the conditional deletions. `CleanedWellFormed` and `CleanedIdempotent` state its effect |
| `Cleaning.Keep` | src/hooks/useDownloader.ts:37-40 | reference filter: an entry is kept exactly when it is in the list and its name is not among the names |
| `Cleaning.DeleteParamIsKeep` | src/hooks/useDownloader.ts:37 | one deletion is the filter for one name, order kept |
| `Cleaning.KeepKeep` | src/hooks/useDownloader.ts:37-40 | filtering by one set of names and then another is filtering once by both |
| `Cleaning.DeleteAllIsKeep` | src/hooks/useDownloader.ts:37-40 | deleting names one after another is one filter by all of them |
| `Cleaning.StripTrackingIsKeep` | src/hooks/useDownloader.ts:37-40 | the four deletions remove exactly `mibextid`, `utm_source`, `utm_medium` and `utm_campaign` and keep the rest in order |
| `Cleaning.CleanUrl` | src/hooks/useDownloader.ts:44-46 | input that does not parse comes back unchanged |
| `Cleaning.CleanedWellFormed` | src/hooks/useDownloader.ts:36-41 | cleaning keeps a URL well formed and its host unchanged, and on a Facebook host leaves exactly the untracked entries |
| `Cleaning.CleanUrlEffect` | src/hooks/useDownloader.ts:31-47 | the cleaned string parses back to the input's URL with scheme, host, path and fragment unchanged. On a Facebook host the query is exactly the untracked entries in order. On any other host nothing changes |
| `Cleaning.CleanedIdempotent` | src/hooks/useDownloader.ts:36-41 | on the URL object, a second round of deletions removes nothing more |
| `Cleaning.CleanUrlIdempotent` | src/hooks/useDownloader.ts:31-47 | cleaning a cleaned URL returns it unchanged |
| `Errors.ErrorMessage` | src/hooks/useDownloader.ts:50-75 | the message shown is never empty, and is one of the seven fixed messages or the error's own text |
| `Errors.FirstCode` | src/hooks/useDownloader.ts:51-72 | finds the first of the codes that occurs in the message: every earlier code is absent, and none occurs when there is no result |
| `Errors.ErrorMessageFirstMatch` | src/hooks/useDownloader.ts:50-75 | the classifier is "first code among 400, 403, 404, 429, 500 wins", with the Facebook variant for 400, else the error's text or the default |
| `Errors.ThreeDigitCode` | src/hooks/useDownloader.ts:51-72 | a three-digit status after a prefix without the code's first digit contains a three-digit code exactly when they are equal |
| `Errors.StatusErrorMessage` | src/hooks/useDownloader.ts:50-75 | a message ending in a three-digit status after a prefix without `4` or `5` is classified by that status alone |
| `Errors.NoCode` | src/hooks/useDownloader.ts:51-72 | a text without the first character of a code does not contain it |
| `Errors.PlainMessage` | src/hooks/useDownloader.ts:74 | a message with no `4` and no `5` reaches the user as it is, or as the default when empty |
| `Downloads.Title` | src/hooks/useDownloader.ts:84 | for a URL not ending in `/`, the title is its last `/`-segment: a non-empty suffix with no `/` that is the whole URL or follows a `/`. For an empty URL or one ending in `/`, it is `Unknown` |
| `Downloads.NewItem` | src/hooks/useDownloader.ts:78-90 | a new record has the given id, format and quality. It is pending at progress 0 with the cleaned URL and its title, and has no link or error |
| `Downloads.RetryKeepsRequest` | src/hooks/useDownloader.ts:251-256 | a retry of a settled record starts a new record with the same URL, format and quality, because cleaning is idempotent |
| `Downloads.ErrorBodyText` | src/hooks/useDownloader.ts:126-137 | the error text of a refused submission is the body's `error`, else its `message`, else `HTTP error! status: N`. When the body is not JSON it is the body text, or that default when the text is empty. It is never empty |
| `Downloads.Settle` | src/hooks/useDownloader.ts:149-179 | the record a download ends with is the same download, no longer pending. It is completed exactly on success, with progress 100, the reply's link and its title or the old one. On failure it carries the classified message, and everything else is unchanged |
| `Downloads.InvalidFormatShown` | src/hooks/useDownloader.ts:143-145 | `Invalid response format from server` passes the classifier unchanged |
| `Downloads.MalformedSubmitFails` | src/hooks/useDownloader.ts:141-145 | a 2xx submit reply whose text is not JSON fails the download at once, and the record shows `Invalid response format from server` |
| `Downloads.UnexpectedFormatShown` | src/hooks/useDownloader.ts:170 | a body with neither link nor job fails with its own message, unclassified |
| `Downloads.RemoteFailureShown` | src/hooks/useDownloader.ts:217 | a job reported failed without an error text fails with `Download failed`, unclassified |
| `Downloads.TimeoutShown` | src/hooks/useDownloader.ts:229 | the timeout failure reaches the user with its own text |
| `Downloads.SubmitStep` | src/hooks/useDownloader.ts:126-170 | a rejected fetch fails with its message. A non-2xx reply fails with the body's error text. A 2xx reply that is not JSON fails with `Invalid response format from server`, and a `null` one with the `TypeError` of reading `success`. A named job is non-empty. The submission completes at once exactly when a 2xx JSON object has a truthy `success` and a non-empty `downloadUrl` |
| `Downloads.SubmitDisambiguation` | src/hooks/useDownloader.ts:147-170 | a 2xx object is read as a success, else as a job to poll (with its id), else as an unexpected format. Each reading holds exactly under its condition |
| `Downloads.SubmitRejected` | src/hooks/useDownloader.ts:126-137 | a non-2xx reply fails with the body's error text. With the default text the user sees the message for that status |
| `Downloads.PollStep` | src/hooks/useDownloader.ts:193-223 | a rejected fetch fails with its message. A non-2xx reply fails with `Status check failed: N`. A 2xx reply that is not JSON fails with the parse error's own text, and a `null` one with the `TypeError` of reading `status`. A status reply completes the job exactly when it is a 2xx object with `status` `completed` |
| `Downloads.PollDisambiguation` | src/hooks/useDownloader.ts:201-223 | a 2xx object completes, fails with its `error` or `Download failed`, or reports its progress, by its `status` field alone |
| `Downloads.PollRejected` | src/hooks/useDownloader.ts:195-197 | a non-2xx status reply fails with `Status check failed: N`, which the user sees as the message for status N |
| `Downloads.NextProgress` | src/hooks/useDownloader.ts:221-223 | a reported progress replaces the one on show, and without a report it stays. `LastProgressIsLast` lifts this to a run of replies |
| `Downloads.PollFrom` | src/hooks/useDownloader.ts:187-241 | polling makes at least one and at most sixty requests. It settles only on a reply received, or waits on the request after the last reply |
| `Downloads.PollSettlesAtFirstFinal` | src/hooks/useDownloader.ts:199-218 | polling settles on the first final reply, and no request is made after it |
| `Downloads.PollTimeout` | src/hooks/useDownloader.ts:225-230 | sixty non-final replies in a row end in the timeout failure after exactly the sixtieth request |
| `Downloads.LastProgress` | src/hooks/useDownloader.ts:221-223 | the progress on show is the starting one or one a reply reported |
| `Downloads.LastProgressIsLast` | src/hooks/useDownloader.ts:221-223 | when reply k reports a progress and no later reply does, the progress on show is reply k's |
| `Downloads.LastProgressNoneReported` | src/hooks/useDownloader.ts:221-223 | when no reply reports a progress, the starting one stays on show |
| `Downloads.PollWaitingProgress` | src/hooks/useDownloader.ts:220-227 | while the replies run out before anything final, polling waits and shows the last reported progress |
| `Downloads.Submission` | src/hooks/useDownloader.ts:147-170 | a submission settled by its own reply makes no status request. One that names a job makes at least one. No submission makes more than sixty |
| `Downloader.RemoveId` | src/hooks/useDownloader.ts:248 | the filter never lengthens the history |
| `Downloader.RemoveIdMembers` | src/hooks/useDownloader.ts:248 | the entries left are exactly those with another id |
| `Downloader.RemoveIdAbsent` | src/hooks/useDownloader.ts:248 | deleting an id no entry has changes nothing |
| `Downloader.RemoveIdFirst` | src/hooks/useDownloader.ts:248 | with distinct ids, deleting the first entry's id leaves the rest |
| `Downloader.RemoveIdUnique` | src/hooks/useDownloader.ts:248 | with distinct ids, deleting the id of entry k removes that entry and nothing else, order kept |
| `Downloader.RemoveIdPreservesDistinct` | src/hooks/useDownloader.ts:248 | deleting keeps ids distinct |
| `Downloader.Downloader.constructor` | src/hooks/useDownloader.ts:24-26 | empty history, nothing on show, not loading |
| `Downloader.Downloader.Begin` | src/hooks/useDownloader.ts:92-93 | the new pending record is on show and loading starts, and the history is unchanged |
| `Downloader.Downloader.Finalize` | src/hooks/useDownloader.ts:157-159 | the settled record goes to the front of the history, and nothing is on show or loading |
| `Downloader.Downloader.ShowProgress` | src/hooks/useDownloader.ts:222 | the record on show, if any, takes the reported progress, and nothing else changes |
| `Downloader.Downloader.Poll` | src/hooks/useDownloader.ts:187-245 | the polling loop leaves the state `PollFrom` describes (the original record settled at the front of the history, or the record on show with the last progress) and returns the number of requests made |
| `Downloader.Downloader.Submit` | src/hooks/useDownloader.ts:126-184 | the submit reply settles the record on show or hands it to polling, leaving the state `Submission` describes |
| `Downloader.Downloader.StartDownload` | src/hooks/useDownloader.ts:77-185 | a submission creates a pending record with a fresh id and ends in the state `Submission` describes for it |
| `Downloader.Downloader.DeleteDownload` | src/hooks/useDownloader.ts:247-249 | the history becomes the entries with another id, in order, and nothing else changes |
| `Downloader.Downloader.RetryDownload` | src/hooks/useDownloader.ts:251-256 | a retry is a fresh submission of the entry's URL, format and quality with a new id, and the entry stays in the history |
| `UrlInput.Warning` | src/components/UrlInput.tsx:25-38 | a warning is shown only for input that parses |
| `UrlInput.WarningCases` | src/components/UrlInput.tsx:26-34 | each platform warning is shown exactly for its hosts: Facebook first, then Instagram, then TikTok. No warning is shown exactly when the input does not parse or its host name names none of the three |
| `UrlInput.Validate` | src/components/UrlInput.tsx:21-41 | the verdict is true exactly when the input parses |
| `UrlInput.DescribesText` | src/components/UrlInput.tsx:47-48 | for non-blank text, the verdict and warning shown are those of validating it |
| `UrlInput.DescribesBlank` | src/components/UrlInput.tsx:49-52 | for blank text, neither verdict nor warning is shown |
| `UrlInput.UrlForm.constructor` | src/components/UrlInput.tsx:15-19 | empty field, MP4 at 720p, no verdict, no warning |
| `UrlInput.UrlForm.ValidateUrl` | src/components/UrlInput.tsx:21-41 | returns the verdict and shows the warning for the input, changing nothing else |
| `UrlInput.UrlForm.HandleUrlChange` | src/components/UrlInput.tsx:43-53 | the new text is kept, and the verdict and warning describe it: both cleared when it is blank |
| `UrlInput.UrlForm.SetFormat` | src/components/UrlInput.tsx:118 | only the format changes |
| `UrlInput.UrlForm.SetQuality` | src/components/UrlInput.tsx:136 | only the quality changes |
| `UrlInput.UrlForm.HandleSubmit` | src/components/UrlInput.tsx:55-60 | a request goes out exactly when the verdict is valid and the text is not blank. It carries the trimmed text, the format and the quality, and the text parses |
| `UrlInput.UrlForm.SubmitDisabled` | src/components/UrlInput.tsx:161 | the button is disabled unless the verdict is `true`, or while loading. `EnabledButtonSubmits` ties it to `HandleSubmit` |
| `UrlInput.UrlForm.EnabledButtonSubmits` | src/components/UrlInput.tsx:161 | while nothing loads, the button is enabled exactly when a submission goes through, and then the text parses |
| `Scenarios.FacebookLinkParsed` | src/hooks/useDownloader.ts:33 | `https://facebook.com/video/123?mibextid=abc` parses to its scheme, host, path and one-entry query |
| `Scenarios.FacebookLinkCleaned` | src/hooks/useDownloader.ts:31-47 | cleaning that link gives `https://facebook.com/video/123` |
| `Scenarios.RefusedWith400` | src/hooks/useDownloader.ts:126-137 | a 400 reply with an empty body ends the submission with `HTTP error! status: 400` and no status request |
| `Scenarios.FacebookRefused` | src/hooks/useDownloader.ts:50-56 | that failure, on the cleaned Facebook link, shows the Facebook guidance and not the generic 400 message |
| `Scenarios.JobCompletes` | src/hooks/useDownloader.ts:187-223 | a job answering "running, 40" and then "completed" shows 40 while waiting. It settles after exactly two status requests, completed at 100 with the reported link and title |

## Left out

- URL parsing covers only absolute `scheme://host…` URLs, split at the first `:`, `/`, `?`, `#`, `&` and `=`. It leaves out these WHATWG URL parser behaviours:
  - lowercasing of scheme and host, and host validation or IDNA;
  - percent-encoding of spaces and other characters;
  - removal of tabs and newlines inside the input;
  - special-scheme rules such as backslashes, default ports and opaque paths.
- Input with a space or control character inside is rejected. The platform parser also rejects a space or control character in the scheme or the host, and it removes tabs and newlines anywhere. Elsewhere (path, query and fragment) it would percent-encode a space or other control character instead.
- Any text before the first `:` is taken as the scheme. The platform parser refuses a scheme that is not a letter followed by letters, digits, `+`, `-` or `.`, so `validateUrl` and `cleanUrl` differ on input such as `h_t://x`.
- On a Facebook host, each `searchParams.delete` re-serialises the whole query in the `application/x-www-form-urlencoded` form. That form percent-encodes every character other than alphanumerics and `*-._`, and writes spaces as `+`. The model keeps the remaining entries as written. For example, `?next=https://a/b&mibextid=x` becomes `?next=https%3A%2F%2Fa%2Fb` on the platform but `?next=https://a/b` in the model, so the cleaned URL and its title can differ.
- `URLSearchParams` is modelled as a name/value list. Names and values are not decoded (`+` and `%xx` are kept as written). Pieces without `=` read back as `name=` after a deletion.
- User information and ports are handled only when the host name is computed, not validated.
- The download id is a counter. `Date.now()` and `Math.random()` are not modelled. The record's `timestamp` is not modelled.
- Console logging, the 500 ms pause before the request and the 5 s polling interval are left out, because they do not affect state. The order of replies stands for time.
- Several downloads in flight at once are not modelled. Each `Downloader.Downloader.StartDownload` or `RetryDownload` call runs its submission over the replies it is given. When those run out, the download is left waiting on show. A later call may start while one is waiting, because retry stays enabled during loading. That call replaces the waiting record, and the model never moves it to the history. In the source, the earlier job's polling goes on, and its record is still prepended to the history when the job settles.
- An unanswered status request leaves the run waiting. An unanswered initial request is not modelled: `Downloads.Submission` and `Downloader.Downloader.Submit` always take its reply. The hook puts no limit on that request, and the record would stay on show, pending and loading, as `Downloader.Downloader.Begin` leaves it.
- JSON bodies are abstracted to the fields the hook reads:
  - a non-string `error`, `message`, `title` or `downloadUrl` is not modelled;
  - a `progress` that is not a number counts as absent;
  - `progress` is an integer in the model, whereas the source's `number` can be fractional (the progress bar rounds it), so fractional progress is not modelled;
  - the job id is used only to name the status request.
- `NullRead`: the message for reading a property of a `null` body follows the V8 wording. Other engines word this `TypeError` differently.
- `UrlInput.UrlForm.SetFormat` and `UrlInput.UrlForm.SetQuality` accept any string. The select elements that restrict the choices are presentation.
- Rendering (icons, colours, the list of supported platforms) is presentation and not modelled.
- Two behaviours of the code that a reader might not expect are kept as written:
  - a failed record keeps the progress of the record as created (0), not the last progress shown;
  - deleting removes every entry with the id, not only the first. With the distinct ids the class keeps, that is the same (`Downloader.RemoveIdUnique`).

=== FILE: cleaning.dfy ===
/**
 * `cleanUrl`: parse the URL, drop the Facebook tracking parameters from
 * its query when the host name contains `facebook.com`, and serialise it
 * again; input that does not parse comes back as it is.
 */
module Cleaning {
  import opened Wrappers
  import opened Text
  import opened Urls

  /** The query parameters removed from Facebook URLs, in the order they are deleted. */
  const TrackingNames: seq<string> := ["mibextid", "utm_source", "utm_medium", "utm_campaign"]

  /**
   * `url.hostname` of an authority: without the user information before
   * the last `@`, and without a `:port` (a bracketed IPv6 address ends at
   * its `]`).
   */
  function Hostname(host: string): (r: string)
    ensures '@' !in r && |r| <= |host|
    ensures var h := AfterLast(host, '@'); |r| <= |h| && r == h[..|r|]
    ensures var h := AfterLast(host, '@');
      (h == [] || h[0] != '[') ==> ':' !in r && (|r| == |h| || h[|r|] == ':')
    ensures var h := AfterLast(host, '@');
      h != [] && h[0] == '[' ==> r != [] && ']' !in r[..|r| - 1] && (|r| == |h| || r[|r| - 1] == ']')
  {
    var h := AfterLast(host, '@');
    if h != [] && h[0] == '[' then
      var i := IndexOfAny(h, {']'});
      var stop := if i < |h| then i + 1 else |h|;
      assert ']' !in h[..stop][..stop - 1] by {
        FreePrefix(h[..i], {']'}, stop - 1);
        assert h[..i][..stop - 1] == h[..stop][..stop - 1];
        FreeNotIn(h[..stop][..stop - 1], {']'}, ']');
      }
      h[..stop]
    else
      var i := IndexOfAny(h, {':'});
      FreeNotIn(h[..i], {':'}, ':');
      h[..i]
  }

  /** A plain host name is its own `hostname`. */
  lemma HostnamePlain(host: string)
    requires '@' !in host && ':' !in host && (host == [] || host[0] != '[')
    ensures Hostname(host) == host
  {
    AfterLastNone(host, '@');
    assert IndexOfAny(host, {':'}) == |host|;
  }

  /** `urlObj.hostname.includes('facebook.com')`. */
  predicate IsFacebook(u: Url) {
    Contains(Hostname(u.host), "facebook.com")
  }

  /** `searchParams.delete(n)` for each `n` of `names`, in order. */
  function DeleteAll(ps: seq<Param>, names: seq<string>): seq<Param>
    decreases |names|
  {
    if names == [] then ps else DeleteAll(DeleteParam(ps, names[0]), names[1..])
  }

  /** The four `searchParams.delete` calls. */
  function StripTracking(ps: seq<Param>): seq<Param> {
    DeleteAll(ps, TrackingNames)
  }

  /** Reference definition: one pass keeping, in order, the entries whose name is not in `names`. */
  function Keep(ps: seq<Param>, names: seq<string>): (r: seq<Param>)
    ensures forall p :: p in r <==> p in ps && p.name !in names
    ensures |r| <= |ps|
  {
    if ps == [] then []
    else (if ps[0].name in names then [] else [ps[0]]) + Keep(ps[1..], names)
  }

  /** One deletion is the filter for one name. */
  lemma {:induction false} DeleteParamIsKeep(ps: seq<Param>, name: string)
    ensures DeleteParam(ps, name) == Keep(ps, [name])
  {
    if ps != [] {
      DeleteParamIsKeep(ps[1..], name);
    }
  }

  /** Filtering twice is filtering once by both sets of names. */
  lemma {:induction false} KeepKeep(ps: seq<Param>, a: seq<string>, b: seq<string>)
    ensures Keep(Keep(ps, a), b) == Keep(ps, a + b)
  {
    if ps != [] {
      KeepKeep(ps[1..], a, b);
      var r := Keep(ps, a);
      if ps[0].name in a {
        assert r == Keep(ps[1..], a) by {
          assert r == [] + Keep(ps[1..], a);
        }
      } else {
        assert r == [ps[0]] + Keep(ps[1..], a);
        assert r[0] == ps[0] && r[1..] == Keep(ps[1..], a);
        assert Keep(r, b) == (if ps[0].name in b then [] else [ps[0]]) + Keep(r[1..], b);
      }
    }
  }

  /** Filtering by the first name and then by the others is filtering by all of them. */
  lemma KeepFirst(ps: seq<Param>, names: seq<string>)
    requires names != []
    ensures Keep(Keep(ps, [names[0]]), names[1..]) == Keep(ps, names)
  {
    KeepKeep(ps, [names[0]], names[1..]);
    assert [names[0]] + names[1..] == names;
  }

  /** Deleting names one after another is one filter by all of them. */
  lemma {:induction false} DeleteAllIsKeep(ps: seq<Param>, names: seq<string>)
    ensures DeleteAll(ps, names) == Keep(ps, names)
    decreases |names|
  {
    if names == [] {
      KeepAbsent(ps, names);
    } else {
      DeleteAllIsKeep(DeleteParam(ps, names[0]), names[1..]);
      DeleteParamIsKeep(ps, names[0]);
      KeepFirst(ps, names);
    }
  }

  /** Filtering by names no entry has keeps everything. */
  lemma {:induction false} KeepAbsent(ps: seq<Param>, names: seq<string>)
    requires forall p | p in ps :: p.name !in names
    ensures Keep(ps, names) == ps
  {
    if ps != [] {
      assert ps[0] in ps;
      KeepAbsent(ps[1..], names);
    }
  }

  /** The four deletions remove exactly the tracking parameters and keep the rest in order. */
  lemma StripTrackingIsKeep(ps: seq<Param>)
    ensures StripTracking(ps) == Keep(ps, TrackingNames)
  {
    DeleteAllIsKeep(ps, TrackingNames);
  }

  /** The URL object after the deletions: only a Facebook host loses anything. */
  function Cleaned(u: Url): Url {
    if IsFacebook(u) then WithParams(u, StripTracking(QueryParams(u))) else u
  }

  /**
   * `cleanUrl`: the re-serialised URL, with the tracking parameters
   * removed when the host name contains `facebook.com`; the input itself
   * when it does not parse.
   */
  function CleanUrl(url: string): (r: string)
    ensures Parse(url).None? ==> r == url
  {
    match Parse(url)
    case None => url
    case Some(u) => Serialize(Cleaned(u))
  }

  /** Cleaning keeps a URL well formed, and leaves it with its untracked entries. */
  lemma CleanedWellFormed(u: Url)
    requires WellFormed(u)
    ensures WellFormed(Cleaned(u))
    ensures Cleaned(u).host == u.host
    ensures IsFacebook(u) ==> QueryParams(Cleaned(u)) == Keep(QueryParams(u), TrackingNames)
  {
    if IsFacebook(u) {
      StripTrackingIsKeep(QueryParams(u));
      WithParamsRoundTrip(u, Keep(QueryParams(u), TrackingNames));
    }
  }

  /**
   * What `cleanUrl` returns reads back as the parsed input with, on a
   * Facebook host, exactly the untracked query entries left in their
   * order, and on any other host, nothing changed.
   */
  lemma CleanUrlEffect(url: string)
    requires Parse(url).Some?
    ensures var u := Parse(url).value;
      && Parse(CleanUrl(url)) == Some(Cleaned(u))
      && Cleaned(u).scheme == u.scheme && Cleaned(u).host == u.host
      && Cleaned(u).path == u.path && Cleaned(u).fragment == u.fragment
      && (IsFacebook(u) ==> QueryParams(Cleaned(u)) == Keep(QueryParams(u), TrackingNames))
      && (!IsFacebook(u) ==> Cleaned(u) == u)
  {
    var u := Parse(url).value;
    CleanedWellFormed(u);
    ParseSerialize(Cleaned(u));
  }

  /** On the URL object, the deletions take nothing more away the second time. */
  lemma CleanedIdempotent(u: Url)
    requires WellFormed(u)
    ensures Cleaned(Cleaned(u)) == Cleaned(u)
  {
    if IsFacebook(u) {
      var kept := Keep(QueryParams(u), TrackingNames);
      var c := WithParams(u, kept);
      assert Cleaned(u) == c by {
        StripTrackingIsKeep(QueryParams(u));
      }
      assert QueryParams(c) == kept by {
        CleanedWellFormed(u);
      }
      assert StripTracking(kept) == kept by {
        StripTrackingIsKeep(kept);
        KeepAbsent(kept, TrackingNames);
      }
      assert IsFacebook(c);
      WithParamsTwice(u, kept, kept);
    }
  }

  /** Cleaning a cleaned URL gives it back unchanged. */
  lemma CleanUrlIdempotent(url: string)
    ensures CleanUrl(CleanUrl(url)) == CleanUrl(url)
  {
    if Parse(url).Some? {
      var u := Parse(url).value;
      var c := Cleaned(u);
      assert CleanUrl(url) == Serialize(c);
      assert Parse(Serialize(c)) == Some(c) by {
        CleanedWellFormed(u);
        ParseSerialize(c);
      }
      CleanedIdempotent(u);
    }
  }
}

=== FILE: downloader.dfy ===
/**
 * The state of the download hook and the operations that change it: the
 * history list (newest first), the download on show, the loading flag,
 * and a counter standing in for identifier generation.
 */
module Downloader {
  import opened Wrappers
  import opened Downloads

  /** No two history entries share an id: no entry's id recurs after it. */
  predicate DistinctIds(items: seq<DownloadItem>) {
    items == [] || ((forall x | x in items[1..] :: x.id != items[0].id) && DistinctIds(items[1..]))
  }

  /** `items.filter(download => download.id !== id)`. */
  function RemoveId(items: seq<DownloadItem>, id: nat): (r: seq<DownloadItem>)
    ensures |r| <= |items|
  {
    if items == [] then []
    else (if items[0].id == id then [] else [items[0]]) + RemoveId(items[1..], id)
  }

  /** The entries left are exactly those with another id. */
  lemma {:induction false} RemoveIdMembers(items: seq<DownloadItem>, id: nat)
    ensures forall x :: x in RemoveId(items, id) <==> x in items && x.id != id
  {
    if items != [] {
      RemoveIdMembers(items[1..], id);
      assert items == [items[0]] + items[1..];
    }
  }

  /** Deleting an id no entry has changes nothing. */
  lemma {:induction false} RemoveIdAbsent(items: seq<DownloadItem>, id: nat)
    requires forall x | x in items :: x.id != id
    ensures RemoveId(items, id) == items
  {
    if items != [] {
      assert items[0] in items;
      RemoveIdAbsent(items[1..], id);
    }
  }

  /** With distinct ids, deleting the id of the first entry removes just that entry. */
  lemma RemoveIdFirst(items: seq<DownloadItem>)
    requires items != [] && DistinctIds(items)
    ensures RemoveId(items, items[0].id) == items[1..]
  {
    RemoveIdAbsent(items[1..], items[0].id);
    assert RemoveId(items, items[0].id) == [] + RemoveId(items[1..], items[0].id);
  }

  /** With distinct ids, deleting the id of entry `k` removes that entry and nothing else. */
  lemma {:induction false} RemoveIdUnique(items: seq<DownloadItem>, k: nat)
    requires DistinctIds(items) && k < |items|
    ensures RemoveId(items, items[k].id) == items[..k] + items[k + 1..]
  {
    if k == 0 {
      RemoveIdFirst(items);
      assert items[..0] + items[1..] == items[1..];
    } else {
      var id := items[k].id;
      var tail := items[1..];
      assert tail[k - 1] == items[k];
      assert items[0].id != id by {
        assert items[k] in tail;
      }
      assert RemoveId(tail, id) == tail[..k - 1] + tail[k..] by {
        RemoveIdUnique(tail, k - 1);
      }
      assert RemoveId(items, id) == [items[0]] + RemoveId(tail, id);
      assert tail[..k - 1] == items[1..k] && tail[k..] == items[k + 1..];
      assert [items[0]] + items[1..k] == items[..k];
    }
  }

  class Downloader {
    /** The history, newest first. */
    var downloads: seq<DownloadItem>
    /** The download on show while it is being processed. */
    var current: Option<DownloadItem>
    var isLoading: bool
    /** The id the next submission gets. */
    var nextId: nat

    /**
     * History entries are settled and carry distinct ids
     * handed out earlier; the download on show is pending; the loading
     * flag says whether one is on show.
     */
    ghost predicate Valid()
      reads this
    {
      && (forall x | x in downloads :: x.status != Pending && x.id < nextId)
      && DistinctIds(downloads)
      && (current.Some? ==> current.value.status == Pending && current.value.id < nextId)
      && isLoading == current.Some?
    }

    /**
     * Where a run leaves the state: a settled run has prepended its record
     * and cleared the download on show; a waiting run has left the history
     * alone and shows `d` with the latest progress.
     */
    ghost predicate Outcome(run: Run, d: DownloadItem, before: seq<DownloadItem>)
      reads this
    {
      match run
      case Settled(t, _) => downloads == [Settle(d, t)] + before && current == None && !isLoading
      case Waiting(_, p) => downloads == before && current == Some(d.(progress := p)) && isLoading
    }

    constructor()
      ensures Valid()
      ensures downloads == [] && current == None && !isLoading
    {
      downloads := [];
      current := None;
      isLoading := false;
      nextId := 0;
    }

    /** A new pending record, with the next id, becomes the download on show, before any request. */
    method Begin(d: DownloadItem)
      requires Valid()
      requires d.status == Pending && d.id == nextId
      modifies this
      ensures Valid()
      ensures downloads == old(downloads) && current == Some(d) && isLoading
      ensures nextId == old(nextId) + 1
    {
      nextId := nextId + 1;
      current := Some(d);
      isLoading := true;
    }

    /** A settled record goes to the front of the history and nothing is on show any more. */
    method Finalize(item: DownloadItem)
      requires Valid()
      requires item.status != Pending && item.id < nextId
      requires forall x | x in downloads :: x.id != item.id
      modifies this
      ensures Valid()
      ensures downloads == [item] + old(downloads) && current == None && !isLoading
      ensures nextId == old(nextId)
    {
      assert ([item] + downloads)[1..] == downloads;
      downloads := [item] + downloads;
      current := None;
      isLoading := false;
    }

    /** A reported progress replaces the one on show, if anything is on show. */
    method ShowProgress(p: int)
      requires Valid()
      modifies this
      ensures Valid()
      ensures current == (if old(current).Some? then Some(old(current).value.(progress := p)) else None)
      ensures downloads == old(downloads) && isLoading == old(isLoading) && nextId == old(nextId)
    {
      if current.Some? {
        current := Some(current.value.(progress := p));
      }
    }

    /**
     * `pollDownloadStatus` for the pending record `d` on show:
     * `replies[k]` answers the `k + 1`-th status request. Returns the
     * number of requests made.
     */
    method Poll(d: DownloadItem, replies: seq<Reply>) returns (requests: nat)
      requires Valid() && current == Some(d)
      requires forall x | x in downloads :: x.id != d.id
      modifies this
      ensures Valid() && nextId == old(nextId)
      ensures Outcome(PollFrom(d.progress, replies, 0), d, old(downloads))
      ensures requests == PollFrom(d.progress, replies, 0).requests
    {
      var attempts: nat := 0;
      requests := 0;
      while true
        invariant Valid() && nextId == old(nextId) && downloads == old(downloads)
        invariant attempts < MaxAttempts && attempts <= |replies| && requests == attempts
        invariant current.Some? && current.value == d.(progress := current.value.progress)
        invariant PollFrom(d.progress, replies, 0) == PollFrom(current.value.progress, replies, attempts)
        decreases MaxAttempts - attempts
      {
        requests := requests + 1;
        if attempts == |replies| {
          return;
        }
        match PollStep(replies[attempts]) {
          case Final(t) =>
            Finalize(Settle(d, t));
            return;
          case Continue(p) =>
            if p.Some? {
              ShowProgress(p.value);
            }
            attempts := attempts + 1;
            if attempts == MaxAttempts {
              Finalize(Settle(d, Error(Timeout)));
              return;
            }
        }
      }
    }

    /**
     * The request part of `startDownload` for the record `d` on show: the
     * submit reply settles it, or names a job that is then polled.
     * Returns the number of status requests made.
     */
    method Submit(d: DownloadItem, submit: Reply, replies: seq<Reply>) returns (statusRequests: nat)
      requires Valid() && current == Some(d) && d.progress == 0
      requires forall x | x in downloads :: x.id != d.id
      modifies this
      ensures Valid() && nextId == old(nextId)
      ensures Outcome(Submission(submit, replies), d, old(downloads))
      ensures statusRequests == Submission(submit, replies).requests
    {
      match SubmitStep(submit) {
        case Done(t) =>
          Finalize(Settle(d, t));
          statusRequests := 0;
        case StartPolling(_) =>
          statusRequests := Poll(d, replies);
      }
    }

    /**
     * `startDownload(url, {format, quality})`, with `submit` the reply to
     * the download request and `replies` those to the status requests.
     * Returns the number of status requests made.
     */
    method StartDownload(url: string, format: string, quality: string, submit: Reply, replies: seq<Reply>)
      returns (statusRequests: nat)
      requires Valid()
      modifies this
      ensures Valid() && nextId == old(nextId) + 1
      ensures var d := NewItem(old(nextId), url, format, quality);
        var run := Submission(submit, replies);
        Outcome(run, d, old(downloads)) && statusRequests == run.requests
    {
      var d := NewItem(nextId, url, format, quality);
      Begin(d);
      statusRequests := Submit(d, submit, replies);
    }

    /** `deleteDownload(id)`: the entries with other ids stay, in order; nothing else changes. */
    method DeleteDownload(id: nat)
      requires Valid()
      modifies this
      ensures Valid()
      ensures downloads == RemoveId(old(downloads), id)
      ensures current == old(current) && isLoading == old(isLoading) && nextId == old(nextId)
    {
      var before := downloads;
      downloads := RemoveId(downloads, id);
      assert DistinctIds(downloads) by {
        RemoveIdPreservesDistinct(before, id);
      }
      RemoveIdMembers(before, id);
    }

    /**
     * `retryDownload(item)`: a fresh submission of the entry's URL, format
     * and quality; the entry itself stays in the history.
     */
    method RetryDownload(item: DownloadItem, submit: Reply, replies: seq<Reply>) returns (statusRequests: nat)
      requires Valid()
      modifies this
      ensures Valid() && nextId == old(nextId) + 1
      ensures var d := NewItem(old(nextId), item.url, item.format, item.quality);
        var run := Submission(submit, replies);
        Outcome(run, d, old(downloads)) && statusRequests == run.requests
      ensures item in old(downloads) ==> item in downloads
    {
      statusRequests := StartDownload(item.url, item.format, item.quality, submit, replies);
    }
  }

  /** Filtering keeps ids distinct. */
  lemma {:induction false} RemoveIdPreservesDistinct(items: seq<DownloadItem>, id: nat)
    requires DistinctIds(items)
    ensures DistinctIds(RemoveId(items, id))
  {
    if items != [] {
      RemoveIdPreservesDistinct(items[1..], id);
      var rest := RemoveId(items[1..], id);
      if items[0].id != id {
        RemoveIdMembers(items[1..], id);
        assert RemoveId(items, id) == [items[0]] + rest;
        assert ([items[0]] + rest)[1..] == rest;
      } else {
        assert RemoveId(items, id) == rest;
      }
    }
  }
}

=== FILE: downloads.dfy ===
/**
 * The decisions the download hook makes, as functions of their inputs:
 * the download record, how one submit reply and a run of status replies
 * end a download, and the record a download ends with.
 *
 * The backend is seen only through its replies: a `Reply` is what one
 * `fetch` produced (a rejection, or a status with a body), and a body is
 * what `JSON.parse` made of its text.
 */
module Downloads {
  import opened Wrappers
  import opened Text
  import opened Cleaning
  import opened Errors

  // ---------------------------------------------------------------------
  // Download records
  // ---------------------------------------------------------------------

  datatype Status = Pending | Completed | Failed

  /** A download record; `id` stands for the generated identifier. */
  datatype DownloadItem = DownloadItem(
    id: nat,
    url: string,
    title: string,
    format: string,
    quality: string,
    status: Status,
    downloadUrl: Option<string>,
    error: Option<string>,
    progress: int)

  /** `cleanedUrl.split('/').pop() || 'Unknown'`. */
  function Title(url: string): (r: string)
    ensures r != []
    ensures url != [] && url[|url| - 1] != '/' ==>
      && '/' !in r && |r| <= |url| && r == url[|url| - |r|..]
      && (|r| == |url| || url[|url| - |r| - 1] == '/')
    ensures url == [] || url[|url| - 1] == '/' ==> r == "Unknown"
  {
    var last := AfterLast(url, '/');
    if last == [] then "Unknown" else last
  }

  /** The record a submission starts from. */
  function NewItem(id: nat, url: string, format: string, quality: string): (d: DownloadItem)
    ensures d.id == id && d.format == format && d.quality == quality
    ensures d.status == Pending && d.progress == 0
    ensures d.url == CleanUrl(url) && d.title == Title(d.url)
    ensures d.downloadUrl.None? && d.error.None?
  {
    var cleaned := CleanUrl(url);
    DownloadItem(id, cleaned, Title(cleaned), format, quality, Pending, None, None, 0)
  }

  /** `item` is a terminal version of `d`: the same download, no longer pending. */
  predicate Finalizes(d: DownloadItem, item: DownloadItem) {
    && item.status != Pending
    && item.id == d.id && item.url == d.url
    && item.format == d.format && item.quality == d.quality
  }

  /**
   * A retry of any record settled from a submission of `url` starts a
   * record with the same URL, format and quality: the URL was cleaned
   * already, and cleaning it again changes nothing.
   */
  lemma RetryKeepsRequest(id: nat, url: string, format: string, quality: string, item: DownloadItem, id2: nat)
    requires Finalizes(NewItem(id, url, format, quality), item)
    ensures var r := NewItem(id2, item.url, item.format, item.quality);
      r.url == item.url && r.format == format && r.quality == quality && r.id == id2
  {
    CleanUrlIdempotent(url);
  }

  // ---------------------------------------------------------------------
  // Replies
  // ---------------------------------------------------------------------

  /**
   * The fields of a parsed body the hook reads. An absent field is `None`;
   * `success` is its truthiness.
   */
  datatype JsonObject = JsonObject(
    success: bool,
    downloadUrl: Option<string>,
    title: Option<string>,
    jobId: Option<string>,
    error: Option<string>,
    message: Option<string>,
    status: Option<string>,
    progress: Option<int>)

  /** `JSON.parse(text)`: a syntax error with its message, `null`, or a value. */
  datatype Json = Malformed(syntaxError: string) | Null | Value(obj: JsonObject)

  /** One `fetch`: rejected with a message, or answered with a status, the body text and its parse. */
  datatype Reply = NetworkFailure(message: string) | Response(status: nat, text: string, body: Json)

  /** `response.ok`. */
  predicate Ok(status: nat) {
    200 <= status <= 299
  }

  /** A string field used as a condition: present and non-empty. */
  predicate Truthy(field: Option<string>) {
    field.Some? && field.value != []
  }

  /** `field || fallback`. */
  function OrElse(field: Option<string>, fallback: string): (r: string)
    ensures Truthy(field) ==> r == field.value
    ensures !Truthy(field) ==> r == fallback
  {
    if Truthy(field) then field.value else fallback
  }

  const InvalidFormat := "Invalid response format from server"
  const UnexpectedFormat := "Unexpected response format from server"
  const RemoteFailure := "Download failed"
  const Timeout := "Download timeout - the process took too long"

  /** The `TypeError` message of reading property `name` of `null`. */
  function NullRead(name: string): string {
    "Cannot read properties of null (reading '" + name + "')"
  }

  function HttpError(status: nat): string {
    "HTTP error! status: " + DecimalString(status)
  }

  function StatusCheckFailed(status: nat): string {
    "Status check failed: " + DecimalString(status)
  }

  /** The error text of a non-OK submit reply: the body's `error`, else its `message`, else its text. */
  function ErrorBodyText(status: nat, text: string, body: Json): (m: string)
    ensures m != []
    ensures body.Value? ==> m == OrElse(body.obj.error, OrElse(body.obj.message, HttpError(status)))
    ensures !body.Value? ==> m == (if text == [] then HttpError(status) else text)
  {
    match body
    case Value(o) => OrElse(o.error, OrElse(o.message, HttpError(status)))
    case _ => if text == [] then HttpError(status) else text
  }

  /** How a download ends: with the object of a successful reply, or with an error message. */
  datatype Terminal = Success(obj: JsonObject) | Error(message: string)

  /**
   * The record `d` ends as: completed with the reply's link, title and
   * full progress, or failed with the classified message, the rest of the
   * record (its progress included) as it was.
   */
  function Settle(d: DownloadItem, t: Terminal): (r: DownloadItem)
    ensures Finalizes(d, r)
    ensures r.status == Completed <==> t.Success?
    ensures t.Success? ==> && r.progress == 100 && r.downloadUrl == t.obj.downloadUrl
                           && r.title == OrElse(t.obj.title, d.title) && r.error == d.error
    ensures t.Error? ==> && r.error == Some(ErrorMessage(t.message, d.url))
                         && r.progress == d.progress && r.title == d.title && r.downloadUrl == d.downloadUrl
  {
    match t
    case Success(o) =>
      d.(status := Completed, downloadUrl := o.downloadUrl, title := OrElse(o.title, d.title), progress := 100)
    case Error(m) => d.(status := Failed, error := Some(ErrorMessage(m, d.url)))
  }

  /** A body that is not JSON fails the submission with its own message, unclassified. */
  lemma InvalidFormatShown(url: string)
    ensures ErrorMessage(InvalidFormat, url) == InvalidFormat
  {
    PlainMessage(InvalidFormat, url);
  }

  /**
   * A 2xx submit reply whose text is not JSON fails the download at once,
   * and the record shows `Invalid response format from server`.
   */
  lemma MalformedSubmitFails(d: DownloadItem, status: nat, text: string, syntaxError: string)
    requires Ok(status)
    ensures var r := SubmitStep(Response(status, text, Malformed(syntaxError)));
      && r == Done(Error(InvalidFormat))
      && Settle(d, r.t).status == Failed && Settle(d, r.t).error == Some(InvalidFormat)
  {
    InvalidFormatShown(d.url);
  }

  /** A body with neither a link nor a job fails the submission with its own message, unclassified. */
  lemma UnexpectedFormatShown(url: string)
    ensures ErrorMessage(UnexpectedFormat, url) == UnexpectedFormat
  {
    PlainMessage(UnexpectedFormat, url);
  }

  /** A job reported failed without an error text fails with its own default message, unclassified. */
  lemma RemoteFailureShown(url: string)
    ensures ErrorMessage(RemoteFailure, url) == RemoteFailure
  {
    PlainMessage(RemoteFailure, url);
  }

  /** The timeout failure reaches the user with its own text. */
  lemma TimeoutShown(url: string)
    ensures ErrorMessage(Timeout, url) == Timeout
  {
    PlainMessage(Timeout, url);
  }

  // ---------------------------------------------------------------------
  // The submit reply
  // ---------------------------------------------------------------------

  datatype SubmitOutcome = Done(t: Terminal) | StartPolling(jobId: string)

  /**
   * What the reply to `POST /api/download` means: an immediate success,
   * else a job to poll, else a failure.
   */
  function SubmitStep(reply: Reply): (r: SubmitOutcome)
    ensures r.StartPolling? ==> r.jobId != []
    ensures reply.NetworkFailure? ==> r == Done(Error(reply.message))
    ensures reply.Response? && !Ok(reply.status) ==>
      r == Done(Error(ErrorBodyText(reply.status, reply.text, reply.body)))
    ensures reply.Response? && Ok(reply.status) && reply.body.Malformed? ==> r == Done(Error(InvalidFormat))
    ensures reply.Response? && Ok(reply.status) && reply.body.Null? ==> r == Done(Error(NullRead("success")))
    ensures r.Done? && r.t.Success? <==>
      reply.Response? && Ok(reply.status) && reply.body.Value? && reply.body.obj.success && Truthy(reply.body.obj.downloadUrl)
  {
    match reply
    case NetworkFailure(m) => Done(Error(m))
    case Response(status, text, body) =>
      if !Ok(status) then Done(Error(ErrorBodyText(status, text, body)))
      else
        match body
        case Malformed(_) => Done(Error(InvalidFormat))
        case Null => Done(Error(NullRead("success")))
        case Value(o) =>
          if o.success && Truthy(o.downloadUrl) then Done(Success(o))
          else if Truthy(o.jobId) then StartPolling(o.jobId.value)
          else Done(Error(UnexpectedFormat))
  }

  /** The three readings of a 2xx object body are exclusive and tried in order. */
  lemma SubmitDisambiguation(status: nat, text: string, o: JsonObject)
    requires Ok(status)
    ensures var r := SubmitStep(Response(status, text, Value(o)));
      && (o.success && Truthy(o.downloadUrl) <==> r == Done(Success(o)))
      && (!(o.success && Truthy(o.downloadUrl)) && Truthy(o.jobId) <==> r.StartPolling?)
      && (r.StartPolling? ==> r.jobId == o.jobId.value)
      && (!(o.success && Truthy(o.downloadUrl)) && !Truthy(o.jobId) <==> r == Done(Error(UnexpectedFormat)))
  {
  }

  /**
   * A non-OK submit reply fails the download with the body's error text;
   * when that is the default `HTTP error! status: N`, the user sees the
   * message for status `N`.
   */
  lemma SubmitRejected(status: nat, text: string, body: Json, url: string)
    requires !Ok(status) && 100 <= status <= 999
    ensures SubmitStep(Response(status, text, body)) == Done(Error(ErrorBodyText(status, text, body)))
    ensures ErrorMessage(HttpError(status), url) == StatusMessage(status, url, HttpError(status))
  {
    StatusErrorMessage("HTTP error! status: ", status, url);
  }

  // ---------------------------------------------------------------------
  // Status polling
  // ---------------------------------------------------------------------

  /** `maxAttempts`. */
  const MaxAttempts: nat := 60

  datatype PollOutcome = Final(t: Terminal) | Continue(progress: Option<int>)

  /** What one reply to `GET /api/status/{jobId}` means. */
  function PollStep(reply: Reply): (r: PollOutcome)
    ensures reply.NetworkFailure? ==> r == Final(Error(reply.message))
    ensures reply.Response? && !Ok(reply.status) ==> r == Final(Error(StatusCheckFailed(reply.status)))
    ensures reply.Response? && Ok(reply.status) && reply.body.Malformed? ==> r == Final(Error(reply.body.syntaxError))
    ensures reply.Response? && Ok(reply.status) && reply.body.Null? ==> r == Final(Error(NullRead("status")))
    ensures r.Final? && r.t.Success? <==>
      reply.Response? && Ok(reply.status) && reply.body.Value? && reply.body.obj.status == Some("completed")
  {
    match reply
    case NetworkFailure(m) => Final(Error(m))
    case Response(status, _, body) =>
      if !Ok(status) then Final(Error(StatusCheckFailed(status)))
      else
        match body
        case Malformed(e) => Final(Error(e))
        case Null => Final(Error(NullRead("status")))
        case Value(o) =>
          if o.status == Some("completed") then Final(Success(o))
          else if o.status == Some("failed") then Final(Error(OrElse(o.error, RemoteFailure)))
          else Continue(o.progress)
  }

  /** A 2xx object body completes, fails or reports progress, by its `status` field alone. */
  lemma PollDisambiguation(status: nat, text: string, o: JsonObject)
    requires Ok(status)
    ensures var r := PollStep(Response(status, text, Value(o)));
      && (o.status == Some("completed") <==> r == Final(Success(o)))
      && (o.status == Some("failed") <==> r.Final? && r.t.Error?)
      && (o.status == Some("failed") ==> r == Final(Error(OrElse(o.error, RemoteFailure))))
      && (o.status != Some("completed") && o.status != Some("failed") <==> r == Continue(o.progress))
  {
  }

  /** A non-OK status reply fails the download with the message for its status code. */
  lemma PollRejected(status: nat, text: string, body: Json, url: string)
    requires !Ok(status) && 100 <= status <= 999
    ensures PollStep(Response(status, text, body)) == Final(Error(StatusCheckFailed(status)))
    ensures ErrorMessage(StatusCheckFailed(status), url) == StatusMessage(status, url, StatusCheckFailed(status))
  {
    StatusErrorMessage("Status check failed: ", status, url);
  }

  /** The progress shown after a non-terminal reply: the reported one if any. */
  function NextProgress(shown: int, reported: Option<int>): (r: int)
    ensures reported.Some? ==> r == reported.value
    ensures reported.None? ==> r == shown
  {
    match reported
    case Some(p) => p
    case None => shown
  }

  /**
   * How a download goes, or stands when the replies run out: settled
   * after a number of status requests, or still waiting on a request with
   * a progress on show.
   */
  datatype Run = Settled(t: Terminal, requests: nat) | Waiting(requests: nat, progress: int)

  /**
   * Polling from attempt `attempts` on, `replies[k]` answering the
   * `k + 1`-th request and `shown` the progress on show. A request without
   * a reply never completes.
   */
  function PollFrom(shown: int, replies: seq<Reply>, attempts: nat): (r: Run)
    requires attempts < MaxAttempts && attempts <= |replies|
    ensures attempts < r.requests <= MaxAttempts
    ensures r.Settled? ==> r.requests <= |replies|
    ensures r.Waiting? ==> r.requests == |replies| + 1
    decreases MaxAttempts - attempts
  {
    if attempts >= |replies| then Waiting(attempts + 1, shown)
    else
      match PollStep(replies[attempts])
      case Final(t) => Settled(t, attempts + 1)
      case Continue(p) =>
        if attempts + 1 < MaxAttempts then PollFrom(NextProgress(shown, p), replies, attempts + 1)
        else Settled(Error(Timeout), attempts + 1)
  }

  /** Polling settles on the first reply that is final, and no request is made after it. */
  lemma {:induction false} PollSettlesAtFirstFinal(shown: int, replies: seq<Reply>, attempts: nat, i: nat)
    requires attempts <= i < MaxAttempts && i < |replies|
    requires PollStep(replies[i]).Final?
    requires forall j | attempts <= j < i :: PollStep(replies[j]).Continue?
    ensures PollFrom(shown, replies, attempts) == Settled(PollStep(replies[i]).t, i + 1)
    decreases i - attempts
  {
    if attempts < i {
      var p := PollStep(replies[attempts]).progress;
      PollSettlesAtFirstFinal(NextProgress(shown, p), replies, attempts + 1, i);
    }
  }

  /** Sixty non-terminal replies in a row end in the timeout failure after the sixtieth request. */
  lemma {:induction false} PollTimeout(shown: int, replies: seq<Reply>, attempts: nat)
    requires attempts < MaxAttempts <= |replies|
    requires forall j | attempts <= j < MaxAttempts :: PollStep(replies[j]).Continue?
    ensures PollFrom(shown, replies, attempts) == Settled(Error(Timeout), MaxAttempts)
    decreases MaxAttempts - attempts
  {
    if attempts + 1 < MaxAttempts {
      var p := PollStep(replies[attempts]).progress;
      PollTimeout(NextProgress(shown, p), replies, attempts + 1);
    }
  }

  /** The progress on show after the non-terminal replies from `attempts` on: the last one reported, else `shown`. */
  function LastProgress(shown: int, replies: seq<Reply>, attempts: nat): (r: int)
    requires attempts <= |replies|
    requires forall j | attempts <= j < |replies| :: PollStep(replies[j]).Continue?
    ensures r == shown || exists j | attempts <= j < |replies| :: PollStep(replies[j]).progress == Some(r)
    decreases |replies| - attempts
  {
    if attempts == |replies| then shown
    else LastProgress(NextProgress(shown, PollStep(replies[attempts]).progress), replies, attempts + 1)
  }

  /** When no reply from `attempts` on reports a progress, the one on show stays. */
  lemma {:induction false} LastProgressNoneReported(shown: int, replies: seq<Reply>, attempts: nat)
    requires attempts <= |replies|
    requires forall j | attempts <= j < |replies| :: PollStep(replies[j]).Continue?
    requires forall j | attempts <= j < |replies| :: PollStep(replies[j]).progress.None?
    ensures LastProgress(shown, replies, attempts) == shown
    decreases |replies| - attempts
  {
    if attempts < |replies| {
      LastProgressNoneReported(shown, replies, attempts + 1);
    }
  }

  /** The progress on show is the one reported by the last reply that reports one. */
  lemma {:induction false} LastProgressIsLast(shown: int, replies: seq<Reply>, attempts: nat, k: nat)
    requires attempts <= k < |replies|
    requires forall j | attempts <= j < |replies| :: PollStep(replies[j]).Continue?
    requires PollStep(replies[k]).progress.Some?
    requires forall j | k < j < |replies| :: PollStep(replies[j]).progress.None?
    ensures LastProgress(shown, replies, attempts) == PollStep(replies[k]).progress.value
    decreases k - attempts
  {
    var next := NextProgress(shown, PollStep(replies[attempts]).progress);
    if attempts < k {
      LastProgressIsLast(next, replies, attempts + 1, k);
    } else {
      LastProgressNoneReported(next, replies, k + 1);
    }
  }

  /** While the replies run out before anything final, polling waits and shows the last reported progress. */
  lemma {:induction false} PollWaitingProgress(shown: int, replies: seq<Reply>, attempts: nat)
    requires attempts <= |replies| < MaxAttempts
    requires forall j | attempts <= j < |replies| :: PollStep(replies[j]).Continue?
    ensures PollFrom(shown, replies, attempts) == Waiting(|replies| + 1, LastProgress(shown, replies, attempts))
    decreases |replies| - attempts
  {
    if attempts < |replies| {
      var p := PollStep(replies[attempts]).progress;
      PollWaitingProgress(NextProgress(shown, p), replies, attempts + 1);
    }
  }

  /**
   * The whole of a submission: its reply, then, if that names a job,
   * polling from the starting progress 0.
   */
  function Submission(submit: Reply, replies: seq<Reply>): (r: Run)
    ensures r.requests <= MaxAttempts
    ensures SubmitStep(submit).Done? ==> r == Settled(SubmitStep(submit).t, 0)
    ensures SubmitStep(submit).StartPolling? ==> r.requests > 0
  {
    match SubmitStep(submit)
    case Done(t) => Settled(t, 0)
    case StartPolling(_) => PollFrom(0, replies, 0)
  }
}

=== FILE: errors.dfy ===
/**
 * `getErrorMessage`: the user-facing text for an error, chosen by the
 * first HTTP status code its message mentions.
 */
module Errors {
  import opened Wrappers
  import opened Text

  const FacebookBadRequest := "Facebook content may not be supported or the URL format is invalid. Try using a direct video link."
  const BadRequest := "Invalid URL or unsupported content. Please check the URL and try again."
  const AccessDenied := "Access denied. The content may be private or require authentication."
  const NotFound := "Content not found. The URL may be incorrect or the content has been removed."
  const TooManyRequests := "Too many requests. Please wait a moment before trying again."
  const ServerError := "Server error. The backend service may be temporarily unavailable."
  const DefaultFailure := "Download failed. Please try again."

  /** The messages the classifier can substitute for an error's own text. */
  const KnownMessages: set<string> :=
    {FacebookBadRequest, BadRequest, AccessDenied, NotFound, TooManyRequests, ServerError, DefaultFailure}

  /**
   * `getErrorMessage(error, url)` for an error whose message is `message`:
   * the message for the first of 400, 403, 404, 429, 500 that occurs in
   * it, otherwise the message itself (or a default when it is empty).
   */
  function ErrorMessage(message: string, url: string): (r: string)
    ensures r != []
    ensures r in KnownMessages || r == message
  {
    if Contains(message, "400") then
      if Contains(url, "facebook.com") then FacebookBadRequest else BadRequest
    else if Contains(message, "403") then AccessDenied
    else if Contains(message, "404") then NotFound
    else if Contains(message, "429") then TooManyRequests
    else if Contains(message, "500") then ServerError
    else if message == [] then DefaultFailure
    else message
  }

  /** The status codes the classifier looks for, in the order it looks. */
  const Codes: seq<string> := ["400", "403", "404", "429", "500"]

  /** The position in `codes` of the first code that occurs in `message`. */
  function FirstCode(message: string, codes: seq<string>): (r: Option<nat>)
    ensures r.Some? ==> r.value < |codes| && Contains(message, codes[r.value])
    ensures r.Some? ==> forall j | 0 <= j < r.value :: !Contains(message, codes[j])
    ensures r.None? ==> forall j | 0 <= j < |codes| :: !Contains(message, codes[j])
  {
    if codes == [] then None
    else if Contains(message, codes[0]) then Some(0)
    else
      match FirstCode(message, codes[1..])
      case None => None
      case Some(i) => Some(i + 1)
  }

  /** The user-facing message for one code. */
  function CodeMessage(code: string, url: string): string {
    if code == "400" then (if Contains(url, "facebook.com") then FacebookBadRequest else BadRequest)
    else if code == "403" then AccessDenied
    else if code == "404" then NotFound
    else if code == "429" then TooManyRequests
    else ServerError
  }

  /** The classifier is "first matching code wins", with the error's own text as the fallback. */
  lemma ErrorMessageFirstMatch(message: string, url: string)
    ensures ErrorMessage(message, url) ==
      match FirstCode(message, Codes)
      case Some(i) => CodeMessage(Codes[i], url)
      case None => if message == [] then DefaultFailure else message
  {
    assert Codes[0] == "400" && Codes[1] == "403" && Codes[2] == "404" && Codes[3] == "429" && Codes[4] == "500";
    match FirstCode(message, Codes)
    case Some(i) =>
      if i >= 1 { assert !Contains(message, Codes[0]); }
      if i >= 2 { assert !Contains(message, Codes[1]); }
      if i >= 3 { assert !Contains(message, Codes[2]); }
      if i >= 4 { assert !Contains(message, Codes[3]); }
    case None =>
      assert !Contains(message, Codes[0]) && !Contains(message, Codes[1]) && !Contains(message, Codes[2]);
      assert !Contains(message, Codes[3]) && !Contains(message, Codes[4]);
  }

  /** The message for an HTTP status, by its number. */
  function StatusMessage(status: nat, url: string, fallback: string): string {
    if status == 400 then (if Contains(url, "facebook.com") then FacebookBadRequest else BadRequest)
    else if status == 403 then AccessDenied
    else if status == 404 then NotFound
    else if status == 429 then TooManyRequests
    else if status == 500 then ServerError
    else fallback
  }

  /** Between two three-digit renderings, containment is equality of the numbers. */
  lemma ThreeDigitCode(prefix: string, n: nat, code: nat)
    requires 100 <= n <= 999 && 100 <= code <= 999
    requires DecimalString(code)[0] !in prefix
    ensures Contains(prefix + DecimalString(n), DecimalString(code)) <==> n == code
  {
    var d := DecimalString(n);
    var c := DecimalString(code);
    ContainsAfterPrefix(prefix, d, c);
    ThreeDigits(n);
    ThreeDigits(code);
    ContainsSameLength(d, c);
    if d == c {
      DecimalInjective(n, code);
    }
  }

  /**
   * An error whose message ends in a three-digit status after a prefix
   * with no `4` or `5` in it is classified by that status alone.
   */
  lemma StatusErrorMessage(prefix: string, n: nat, url: string)
    requires 100 <= n <= 999
    requires '4' !in prefix && '5' !in prefix
    ensures ErrorMessage(prefix + DecimalString(n), url) == StatusMessage(n, url, prefix + DecimalString(n))
  {
    var m := prefix + DecimalString(n);
    assert Contains(m, "400") <==> n == 400 by {
      assert DecimalString(400) == "400" by { assert DecimalString(40) == "40"; }
      ThreeDigitCode(prefix, n, 400);
    }
    assert Contains(m, "403") <==> n == 403 by {
      assert DecimalString(403) == "403" by { assert DecimalString(40) == "40"; }
      ThreeDigitCode(prefix, n, 403);
    }
    assert Contains(m, "404") <==> n == 404 by {
      assert DecimalString(404) == "404" by { assert DecimalString(40) == "40"; }
      ThreeDigitCode(prefix, n, 404);
    }
    assert Contains(m, "429") <==> n == 429 by {
      assert DecimalString(429) == "429" by { assert DecimalString(42) == "42"; }
      ThreeDigitCode(prefix, n, 429);
    }
    assert Contains(m, "500") <==> n == 500 by {
      assert DecimalString(500) == "500" by { assert DecimalString(50) == "50"; }
      ThreeDigitCode(prefix, n, 500);
    }
  }


  /** A text without the first character of `t` does not contain `t`. */
  lemma NoCode(s: string, t: string)
    requires t != [] && t[0] !in s
    ensures !Contains(s, t)
  {
    ContainsAfterPrefix(s, [], t);
    assert s + [] == s;
    ContainsShorter([], t);
  }

  /** A message with no `4` and no `5` in it contains none of the codes and reaches the user as it is. */
  lemma PlainMessage(m: string, url: string)
    requires forall i | 0 <= i < |m| :: m[i] != '4' && m[i] != '5'
    ensures ErrorMessage(m, url) == (if m == [] then DefaultFailure else m)
  {
    assert '4' !in m && '5' !in m;
    NoCode(m, "400");
    NoCode(m, "403");
    NoCode(m, "404");
    NoCode(m, "429");
    NoCode(m, "500");
  }
}

=== FILE: scenarios.dfy ===
/**
 * Two runs of the hook worked out on the model: a Facebook link carrying
 * a tracking parameter that the service refuses with status 400, and a
 * job that reports progress once and then completes.
 */
module Scenarios {
  import opened Wrappers
  import opened Text
  import opened Urls
  import opened Cleaning
  import opened Errors
  import opened Downloads

  const TrackingQuery := "mibextid" + "=abc"
  const FacebookClean := "https" + "://" + "facebook.com" + "/video/123"
  const FacebookLink := FacebookClean + "?" + TrackingQuery

  /** The URL object of the Facebook link. */
  const FacebookUrl := Url("https", "facebook.com", "/video/123", Some(TrackingQuery), None)

  lemma FacebookAuthorityFree()
    ensures Free("https", SchemeStops) && Free("facebook.com", HostStops)
  {
    FreeAll("https", SchemeStops);
    FreeAll("facebook.com", HostStops);
  }

  lemma FacebookTailFree()
    ensures Free("/video/123", PathStops) && Free(TrackingQuery, QueryStops)
  {
    FreeAll("/video/123", PathStops);
    FreeAll(TrackingQuery, QueryStops);
  }

  lemma FacebookUrlWellFormed()
    ensures WellFormed(FacebookUrl)
  {
    FacebookAuthorityFree();
    FacebookTailFree();
  }

  lemma FacebookUrlText()
    ensures Serialize(FacebookUrl) == FacebookLink
    ensures Serialize(FacebookUrl.(query := None)) == FacebookClean
  {
  }

  /** `new URL` reads the link as scheme, host, path and a one-entry query. */
  lemma FacebookLinkParsed()
    ensures Parse(FacebookLink) == Some(FacebookUrl)
  {
    FacebookUrlWellFormed();
    FacebookUrlText();
    ParseSerialize(FacebookUrl);
  }

  /** The link's host is a Facebook host name. */
  lemma FacebookHost()
    ensures IsFacebook(FacebookUrl)
  {
    var h := "facebook.com";
    assert Hostname(h) == h by {
      FreeAll(h, {'@', ':'});
      FreeNotIn(h, {'@', ':'}, '@');
      FreeNotIn(h, {'@', ':'}, ':');
      HostnamePlain(h);
    }
    assert StartsWith(h, h);
  }

  /** `URLSearchParams` splits the entry at its `=`. */
  lemma TrackingEntry()
    ensures ParseParam(TrackingQuery) == Param("mibextid", "abc")
  {
    var j := IndexOfAny(TrackingQuery, {'='});
    assert j == 8 && TrackingQuery[..j] == "mibextid" && TrackingQuery[j..] == "=abc" by {
      FreeAll("mibextid", {'='});
      SplitAt("mibextid", "=abc", {'='});
    }
    assert TrackingQuery[j + 1..] == "abc";
  }

  /** The link's query is the one entry `mibextid=abc`. */
  lemma FacebookQuery()
    ensures QueryParams(FacebookUrl) == [Param("mibextid", "abc")]
  {
    FreeAll(TrackingQuery, {'&'});
    SplitAt(TrackingQuery, [], {'&'});
    assert TrackingQuery + [] == TrackingQuery;
    TrackingEntry();
  }

  /** Cleaning the link drops its only query entry, `mibextid`, and with it the query. */
  lemma FacebookLinkCleaned()
    ensures CleanUrl(FacebookLink) == FacebookClean
  {
    var u := FacebookUrl;
    FacebookLinkParsed();
    FacebookUrlText();
    FacebookHost();
    FacebookQuery();
    var ps := [Param("mibextid", "abc")];
    assert StripTracking(ps) == [] by {
      StripTrackingIsKeep(ps);
      assert ps[0].name in TrackingNames;
    }
    assert Cleaned(u) == u.(query := None);
  }

  /** The cleaned link names Facebook, so a refusal with 400 gets the Facebook guidance. */
  lemma CleanLinkNamesFacebook()
    ensures Contains(FacebookClean, "facebook.com")
  {
    assert OccursAt(FacebookClean, "facebook.com", 8);
    ContainsIff(FacebookClean, "facebook.com");
  }

  /** The record a submission of the link starts from holds the cleaned link. */
  lemma FacebookRecord(id: nat)
    ensures NewItem(id, FacebookLink, "mp4", "720p").url == FacebookClean
  {
    FacebookLinkCleaned();
  }

  /**
   * A refusal with status 400 and an empty body ends the submission at
   * once, before any status request, with the default HTTP error text.
   */
  lemma RefusedWith400(syntaxError: string, replies: seq<Reply>)
    ensures Submission(Response(400, "", Malformed(syntaxError)), replies) == Settled(Error(HttpError(400)), 0)
  {
  }

  /**
   * The service refuses the cleaned link with status 400: the download
   * fails with the Facebook guidance rather than the generic message for
   * 400.
   */
  lemma FacebookRefused(id: nat)
    ensures var r := Settle(NewItem(id, FacebookLink, "mp4", "720p"), Error(HttpError(400)));
      r.status == Failed && r.error == Some(FacebookBadRequest)
  {
    FacebookRecord(id);
    assert ErrorMessage(HttpError(400), FacebookClean) == FacebookBadRequest by {
      SubmitRejected(400, "", Null, FacebookClean);
      CleanLinkNamesFacebook();
    }
  }

  /** The submit reply `{ jobId: "job_1" }`. */
  const JobAccepted := JsonObject(false, None, None, Some("job_1"), None, None, None, None)
  /** The status reply `{ status: "running", progress: 40 }`. */
  const Running := JsonObject(false, None, None, None, None, None, Some("running"), Some(40))
  /** The status reply `{ status: "completed", downloadUrl: "https://x/y.mp4", title: "Clip" }`. */
  const Finished := JsonObject(false, Some("https://x/y.mp4"), Some("Clip"), None, None, None, Some("completed"), None)

  /**
   * A job that runs, reports 40, and completes: 40 is on show while the
   * second status request is out, and the download settles after exactly
   * two status requests, completed with the reported link and title and a
   * progress of 100.
   */
  lemma JobCompletes(id: nat, url: string, t0: string, t1: string, t2: string)
    ensures var submit := Response(200, t0, Value(JobAccepted));
      var first := Response(200, t1, Value(Running));
      var second := Response(200, t2, Value(Finished));
      && Submission(submit, [first]) == Waiting(2, 40)
      && Submission(submit, [first, second]) == Settled(Success(Finished), 2)
      && var r := Settle(NewItem(id, url, "mp4", "720p"), Success(Finished));
         && r.status == Completed && r.progress == 100
         && r.title == "Clip" && r.downloadUrl == Some("https://x/y.mp4")
  {
  }
}

=== FILE: text.dfy ===
/**
 * The JavaScript string built-ins the downloader relies on, stated over
 * `seq<char>`: `includes`, `split('/').pop()`, `trim` and the decimal
 * rendering of a number inside a template literal.
 */
module Text {

  /** `prefix` is an initial segment of `s` (`s.startsWith(prefix)`). */
  predicate StartsWith(s: string, prefix: string) {
    |prefix| <= |s| && s[..|prefix|] == prefix
  }

  /** `s.includes(t)`: `t` occurs somewhere in `s`. */
  predicate Contains(s: string, t: string)
    decreases |s|
  {
    StartsWith(s, t) || (s != [] && Contains(s[1..], t))
  }

  /** `t` occurs in `s` at position `i`. */
  predicate OccursAt(s: string, t: string, i: int) {
    0 <= i && i + |t| <= |s| && s[i..i + |t|] == t
  }

  /** `Contains` is exactly "there is a position where `t` occurs". */
  lemma {:induction false} ContainsIff(s: string, t: string)
    ensures Contains(s, t) <==> exists i :: OccursAt(s, t, i)
    decreases |s|
  {
    if Contains(s, t) {
      if StartsWith(s, t) {
        assert OccursAt(s, t, 0);
      } else {
        ContainsIff(s[1..], t);
        var j :| OccursAt(s[1..], t, j);
        assert s[1..][j..j + |t|] == s[j + 1..j + 1 + |t|];
        assert OccursAt(s, t, j + 1);
      }
    }
    if exists i :: OccursAt(s, t, i) {
      var i :| OccursAt(s, t, i);
      if i == 0 {
        assert StartsWith(s, t);
      } else {
        assert s[1..][i - 1..i - 1 + |t|] == s[i..i + |t|];
        assert OccursAt(s[1..], t, i - 1);
        ContainsIff(s[1..], t);
      }
    }
  }

  /** A text shorter than `t` cannot contain it. */
  lemma {:induction false} ContainsShorter(s: string, t: string)
    requires |s| < |t|
    ensures !Contains(s, t)
    decreases |s|
  {
    if s != [] {
      ContainsShorter(s[1..], t);
    }
  }

  /** Between texts of equal length, containment is equality. */
  lemma ContainsSameLength(s: string, t: string)
    requires |s| == |t|
    ensures Contains(s, t) <==> s == t
  {
    if s != [] {
      ContainsShorter(s[1..], t);
    }
  }

  /**
   * A prefix in which the first character of `t` never appears cannot
   * hold (the start of) an occurrence of `t`.
   */
  lemma {:induction false} ContainsAfterPrefix(p: string, s: string, t: string)
    requires t != [] && t[0] !in p
    ensures Contains(p + s, t) <==> Contains(s, t)
    decreases |p|
  {
    if p != [] {
      assert (p + s)[1..] == p[1..] + s;
      assert !StartsWith(p + s, t) by {
        assert (p + s)[0] == p[0];
      }
      ContainsAfterPrefix(p[1..], s, t);
    } else {
      assert p + s == s;
    }
  }

  /** No character of `s` is in `cs`. */
  predicate Free(s: string, cs: set<char>) {
    s == [] || (s[0] !in cs && Free(s[1..], cs))
  }

  lemma {:induction false} FreeAt(s: string, cs: set<char>, i: nat)
    requires Free(s, cs) && i < |s|
    ensures s[i] !in cs
  {
    if i > 0 { FreeAt(s[1..], cs, i - 1); }
  }

  /** A text none of whose characters is in `cs` is free of `cs`. */
  lemma {:induction false} FreeAll(s: string, cs: set<char>)
    requires forall i | 0 <= i < |s| :: s[i] !in cs
    ensures Free(s, cs)
  {
    if s != [] {
      FreeAll(s[1..], cs);
    }
  }

  lemma FreeCons(c: char, s: string, cs: set<char>)
    requires c !in cs && Free(s, cs)
    ensures Free([c] + s, cs)
  {
  }

  lemma {:induction false} FreeConcat(a: string, b: string, cs: set<char>)
    requires Free(a, cs) && Free(b, cs)
    ensures Free(a + b, cs)
  {
    if a == [] {
      assert a + b == b;
    } else {
      assert (a + b)[1..] == a[1..] + b;
      FreeConcat(a[1..], b, cs);
    }
  }

  lemma {:induction false} FreePrefix(s: string, cs: set<char>, hi: nat)
    requires Free(s, cs) && hi <= |s|
    ensures Free(s[..hi], cs)
  {
    if hi > 0 {
      assert s[..hi][1..] == s[1..][..hi - 1];
      FreePrefix(s[1..], cs, hi - 1);
    }
  }

  lemma {:induction false} FreeSuffix(s: string, cs: set<char>, lo: nat)
    requires Free(s, cs) && lo <= |s|
    ensures Free(s[lo..], cs)
  {
    if lo > 0 {
      assert s[lo..] == s[1..][lo - 1..];
      FreeSuffix(s[1..], cs, lo - 1);
    }
  }

  lemma {:induction false} FreeUnion(s: string, a: set<char>, b: set<char>)
    requires Free(s, a) && Free(s, b)
    ensures Free(s, a + b)
  {
    if s != [] { FreeUnion(s[1..], a, b); }
  }

  lemma {:induction false} FreeSubset(s: string, a: set<char>, b: set<char>)
    requires Free(s, a) && b <= a
    ensures Free(s, b)
  {
    if s != [] { FreeSubset(s[1..], a, b); }
  }

  /**
   * The position of the first character of `s` that is in `stops`, or
   * `|s|` when there is none (a search for the first separator).
   */
  function IndexOfAny(s: string, stops: set<char>): (r: nat)
    ensures r <= |s| && Free(s[..r], stops)
    ensures r < |s| ==> s[r] in stops
  {
    if s == [] || s[0] in stops then 0
    else
      var r := 1 + IndexOfAny(s[1..], stops);
      assert s[..r][1..] == s[1..][..r - 1];
      r
  }

  /** A search through a separator-free prefix goes on into what follows it. */
  lemma {:induction false} IndexOfAnyConcat(a: string, b: string, stops: set<char>)
    requires Free(a, stops)
    ensures IndexOfAny(a + b, stops) == |a| + IndexOfAny(b, stops)
    decreases |a|
  {
    if a != [] {
      assert (a + b)[0] == a[0];
      assert (a + b)[1..] == a[1..] + b;
      IndexOfAnyConcat(a[1..], b, stops);
    } else {
      assert a + b == b;
    }
  }

  /** In `a + b`, the first separator is where `b` starts, when `a` has none and `b` starts with one. */
  lemma SplitAt(a: string, b: string, stops: set<char>)
    requires Free(a, stops) && (b == [] || b[0] in stops)
    ensures IndexOfAny(a + b, stops) == |a|
    ensures (a + b)[..|a|] == a && (a + b)[|a|..] == b
  {
    IndexOfAnyConcat(a, b, stops);
  }

  /**
   * `s.split(sep).pop()`: the text after the last `sep`, or all of `s`
   * when it has none.
   */
  function AfterLast(s: string, sep: char): (r: string)
    ensures sep !in r
    ensures |r| <= |s| && r == s[|s| - |r|..]
    ensures |r| < |s| ==> s[|s| - |r| - 1] == sep
  {
    if s == [] || s[|s| - 1] == sep then []
    else AfterLast(s[..|s| - 1], sep) + [s[|s| - 1]]
  }

  /** With no separator in `s`, nothing is cut off. */
  lemma AfterLastNone(s: string, sep: char)
    requires sep !in s
    ensures AfterLast(s, sep) == s
  {
  }

  /** A character from `cs` does not occur in a text that is free of `cs`. */
  lemma {:induction false} FreeNotIn(s: string, cs: set<char>, c: char)
    requires Free(s, cs) && c in cs
    ensures c !in s
  {
    if s != [] {
      FreeNotIn(s[1..], cs, c);
      assert s == [s[0]] + s[1..];
    }
  }

  /** The characters ECMAScript counts as WhiteSpace or LineTerminator. */
  predicate IsJsSpace(c: char) {
    c == '\t' || c == '\n' || c == '\U{000B}' || c == '\U{000C}' || c == '\r' || c == ' '
    || c == '\U{00A0}' || c == '\U{1680}' || ('\U{2000}' <= c <= '\U{200A}')
    || c == '\U{2028}' || c == '\U{2029}' || c == '\U{202F}' || c == '\U{205F}'
    || c == '\U{3000}' || c == '\U{FEFF}'
  }

  /** `s` with its leading whitespace removed (`s.trimStart()`). */
  function TrimStart(s: string): string {
    if s != [] && IsJsSpace(s[0]) then TrimStart(s[1..]) else s
  }

  /** `s` with its trailing whitespace removed (`s.trimEnd()`). */
  function TrimEnd(s: string): string {
    if s != [] && IsJsSpace(s[|s| - 1]) then TrimEnd(s[..|s| - 1]) else s
  }

  /** `s.trim()`. */
  function Trim(s: string): string {
    TrimEnd(TrimStart(s))
  }

  /** `trimStart` cuts off a prefix of whitespace, up to the first other character. */
  lemma {:induction false} TrimStartCuts(s: string)
    ensures var r := TrimStart(s);
      && |r| <= |s| && r == s[|s| - |r|..]
      && (forall i | 0 <= i < |s| - |r| :: IsJsSpace(s[i]))
      && (r != [] ==> !IsJsSpace(r[0]))
  {
    if s != [] && IsJsSpace(s[0]) {
      TrimStartCuts(s[1..]);
      var r := TrimStart(s[1..]);
      assert s[1..][|s| - 1 - |r|..] == s[|s| - |r|..];
      forall i | 0 <= i < |s| - |r| ensures IsJsSpace(s[i]) {
        if i > 0 { assert s[i] == s[1..][i - 1]; }
      }
    }
  }

  /** `trimEnd` cuts off a suffix of whitespace, back to the last other character. */
  lemma {:induction false} TrimEndCuts(s: string)
    ensures var r := TrimEnd(s);
      && |r| <= |s| && r == s[..|r|]
      && (forall i | |r| <= i < |s| :: IsJsSpace(s[i]))
      && (r != [] ==> !IsJsSpace(r[|r| - 1]))
  {
    if s != [] && IsJsSpace(s[|s| - 1]) {
      TrimEndCuts(s[..|s| - 1]);
      var r := TrimEnd(s[..|s| - 1]);
      assert s[..|s| - 1][..|r|] == s[..|r|];
      forall i | |r| <= i < |s| ensures IsJsSpace(s[i]) {
        if i < |s| - 1 { assert s[i] == s[..|s| - 1][i]; }
      }
    }
  }

  /** Trimming leaves nothing exactly when every character is whitespace. */
  lemma TrimEmpty(s: string)
    ensures Trim(s) == [] <==> forall i | 0 <= i < |s| :: IsJsSpace(s[i])
  {
    TrimStartCuts(s);
    TrimEndCuts(TrimStart(s));
  }

  /** The decimal digit for `d`. */
  function Digit(d: nat): (c: char)
    requires d < 10
    ensures '0' <= c <= '9'
  {
    (('0' as int) + d) as char
  }

  /** The value of a decimal digit character. */
  function DigitValue(c: char): (d: nat)
    requires '0' <= c <= '9'
    ensures d < 10 && Digit(d) == c
  {
    (c as int) - ('0' as int)
  }

  /** A string of decimal digits. */
  predicate IsDigits(s: string) {
    forall i | 0 <= i < |s| :: '0' <= s[i] <= '9'
  }

  /** `${n}` for a non-negative integer `n`: its decimal digits. */
  function DecimalString(n: nat): (r: string)
    ensures r != [] && IsDigits(r)
  {
    if n < 10 then [Digit(n)] else DecimalString(n / 10) + [Digit(n % 10)]
  }

  /** The number a string of decimal digits denotes (most significant first). */
  function DecimalValue(s: string): (n: nat)
    requires IsDigits(s)
  {
    if s == [] then 0 else 10 * DecimalValue(s[..|s| - 1]) + DigitValue(s[|s| - 1])
  }

  /** Reading back the decimal rendering of `n` gives `n`. */
  lemma {:induction false} DecimalRoundTrip(n: nat)
    ensures DecimalValue(DecimalString(n)) == n
  {
    if n >= 10 {
      var q, d := n / 10, n % 10;
      var r := DecimalString(n);
      assert r[..|r| - 1] == DecimalString(q) && r[|r| - 1] == Digit(d);
      DecimalRoundTrip(q);
    }
  }

  /** Distinct numbers render differently. */
  lemma DecimalInjective(n: nat, m: nat)
    requires DecimalString(n) == DecimalString(m)
    ensures n == m
  {
    DecimalRoundTrip(n);
    DecimalRoundTrip(m);
  }

  /** A number from 100 to 999 has three digits. */
  lemma ThreeDigits(n: nat)
    requires 100 <= n <= 999
    ensures |DecimalString(n)| == 3
  {
    var m := n / 10;
    assert 10 <= m < 100 && 1 <= m / 10 < 10;
    assert DecimalString(n) == DecimalString(m) + [Digit(n % 10)];
    assert DecimalString(m) == DecimalString(m / 10) + [Digit(m % 10)];
  }
}

=== FILE: url_input.dfy ===
/**
 * The URL form: the text typed so far, the chosen format and quality, the
 * validity verdict and platform warning shown under the field, and what a
 * submission hands to the download hook.
 */
module UrlInput {
  import opened Wrappers
  import opened Text
  import opened Urls
  import opened Cleaning

  const FacebookWarning := "Facebook content may have limited support. Try using direct video links when possible."
  const InstagramWarning := "Instagram content may require the post to be public."
  const TikTokWarning := "TikTok content support may vary depending on privacy settings."

  /**
   * The warning `validateUrl` shows for `input`: by the parsed host name,
   * Facebook before Instagram before TikTok; none for any other host or
   * for input that does not parse.
   */
  function Warning(input: string): (r: Option<string>)
    ensures r.Some? ==> Parse(input).Some?
  {
    match Parse(input)
    case None => None
    case Some(u) =>
      var h := Hostname(u.host);
      if Contains(h, "facebook.com") then Some(FacebookWarning)
      else if Contains(h, "instagram.com") then Some(InstagramWarning)
      else if Contains(h, "tiktok.com") then Some(TikTokWarning)
      else None
  }

  /**
   * Each warning is shown for exactly the hosts it names, in order: the
   * Facebook one for the hosts whose tracking parameters `cleanUrl`
   * removes, the Instagram one for the other hosts naming Instagram, the
   * TikTok one for the remaining hosts naming TikTok; none for input that
   * does not parse or whose host name names none of the three.
   */
  lemma WarningCases(input: string)
    ensures var r := Warning(input);
      && (r == Some(FacebookWarning) <==> Parse(input).Some? && IsFacebook(Parse(input).value))
      && (r == Some(InstagramWarning) <==>
            && Parse(input).Some? && !IsFacebook(Parse(input).value)
            && Contains(Hostname(Parse(input).value.host), "instagram.com"))
      && (r == Some(TikTokWarning) <==>
            && Parse(input).Some? && !IsFacebook(Parse(input).value)
            && !Contains(Hostname(Parse(input).value.host), "instagram.com")
            && Contains(Hostname(Parse(input).value.host), "tiktok.com"))
      && (r == None <==>
            || Parse(input).None?
            || (var h := Hostname(Parse(input).value.host);
                !Contains(h, "facebook.com") && !Contains(h, "instagram.com") && !Contains(h, "tiktok.com")))
  {
    // The three warnings differ in length.
    assert FacebookWarning != InstagramWarning && InstagramWarning != TikTokWarning && TikTokWarning != FacebookWarning by {
      assert |FacebookWarning| == 86 && |InstagramWarning| == 52 && |TikTokWarning| == 62;
    }
    match Parse(input)
    case None =>
    case Some(u) =>
      var h := Hostname(u.host);
      var facebook, instagram, tiktok := Contains(h, "facebook.com"), Contains(h, "instagram.com"), Contains(h, "tiktok.com");
      assert IsFacebook(u) == facebook;
      assert Warning(input) ==
        if facebook then Some(FacebookWarning)
        else if instagram then Some(InstagramWarning)
        else if tiktok then Some(TikTokWarning)
        else None;
  }

  /** `validateUrl`'s verdict: the input parses and is not empty; a parsed input never is, so parsing decides. */
  function Validate(input: string): (r: bool)
    ensures r <==> Parse(input).Some?
  {
    Parse(input).Some? && |input| > 0
  }

  /**
   * The verdict and the warning shown for the text `text`: both absent
   * while it is blank, else what validating it gives.
   */
  predicate Describes(text: string, verdict: Option<bool>, warning: Option<string>) {
    && verdict == (if Trim(text) == [] then None else Some(Validate(text)))
    && warning == (if Trim(text) == [] then None else Warning(text))
  }

  lemma DescribesText(text: string)
    requires Trim(text) != []
    ensures Describes(text, Some(Validate(text)), Warning(text))
  {
  }

  lemma DescribesBlank(text: string)
    requires Trim(text) == []
    ensures Describes(text, None, None)
  {
  }

  /** What a submission hands to `onSubmit`. */
  datatype Request = Request(url: string, format: string, quality: string)

  class UrlForm {
    var url: string
    var format: string
    var quality: string
    /** `null` while the field is blank, else the verdict on its text. */
    var isValidUrl: Option<bool>
    var urlWarning: Option<string>

    /**
     * The verdict and the warning always describe the current text: both
     * absent while it is blank, else what validating it gave.
     */
    ghost predicate Valid()
      reads this
    {
      Describes(url, isValidUrl, urlWarning)
    }

    /** An empty field, MP4 at 720p, no verdict and no warning. */
    constructor()
      ensures Valid()
      ensures url == [] && format == "mp4" && quality == "720p"
      ensures isValidUrl == None && urlWarning == None
    {
      url := [];
      format := "mp4";
      quality := "720p";
      isValidUrl := None;
      urlWarning := None;
    }

    /** `validateUrl(inputUrl)`: shows the platform warning for the input and returns its verdict. */
    method ValidateUrl(input: string) returns (ok: bool)
      modifies this
      ensures ok == Validate(input) && urlWarning == Warning(input)
      ensures url == old(url) && format == old(format) && quality == old(quality) && isValidUrl == old(isValidUrl)
    {
      urlWarning := Warning(input);
      ok := Validate(input);
    }

    /** `handleUrlChange`: the new text is kept, and validated unless it is blank. */
    method HandleUrlChange(newUrl: string)
      modifies this
      ensures Valid()
      ensures url == newUrl && format == old(format) && quality == old(quality)
    {
      url := newUrl;
      if Trim(newUrl) != [] {
        var ok := ValidateUrl(newUrl);
        isValidUrl := Some(ok);
        DescribesText(newUrl);
      } else {
        isValidUrl := None;
        urlWarning := None;
        DescribesBlank(newUrl);
      }
    }

    method SetFormat(f: string)
      requires Valid()
      modifies this
      ensures Valid()
      ensures format == f && url == old(url) && quality == old(quality)
      ensures isValidUrl == old(isValidUrl) && urlWarning == old(urlWarning)
    {
      format := f;
    }

    method SetQuality(q: string)
      requires Valid()
      modifies this
      ensures Valid()
      ensures quality == q && url == old(url) && format == old(format)
      ensures isValidUrl == old(isValidUrl) && urlWarning == old(urlWarning)
    {
      quality := q;
    }

    /** `disabled={!isValidUrl || isLoading}`. */
    predicate SubmitDisabled(isLoading: bool)
      reads this
    {
      isValidUrl != Some(true) || isLoading
    }

    /**
     * `handleSubmit`: with a valid verdict and a non-blank text, the
     * trimmed text with the chosen format and quality; otherwise nothing.
     */
    method HandleSubmit() returns (request: Option<Request>)
      requires Valid()
      ensures request.Some? <==> isValidUrl == Some(true) && Trim(url) != []
      ensures request.Some? ==> request.value == Request(Trim(url), format, quality)
      ensures request.Some? ==> request.value.url != [] && Parse(url).Some?
    {
      if isValidUrl == Some(true) && Trim(url) != [] {
        request := Some(Request(Trim(url), format, quality));
      } else {
        request := None;
      }
    }

    /**
     * While nothing is loading, the button is enabled exactly when a
     * submission goes through: a valid verdict implies a non-blank text,
     * and that verdict means the text parses.
     */
    lemma EnabledButtonSubmits()
      requires Valid()
      ensures !SubmitDisabled(false) <==> isValidUrl == Some(true) && Trim(url) != []
      ensures !SubmitDisabled(false) ==> Parse(url).Some?
    {
    }
  }
}

=== FILE: urls.dfy ===
/**
 * The part of the platform URL object the downloader uses: `new URL(s)`
 * (which throws on input it cannot parse), `url.hostname`,
 * `url.searchParams.delete(name)` and `url.toString()`.
 *
 * A URL is kept in the hierarchical form `scheme://host path ?query #fragment`;
 * on the absolute `scheme://host…` inputs it covers, `Parse` returns `None`
 * where the constructor would throw (README, "Left out", lists the inputs
 * on which the two differ), and
 * `Serialize` is `toString()`. The query's name/value list is the
 * `URLSearchParams` view of the query.
 */
module Urls {
  import opened Wrappers
  import opened Text

  /** One name/value entry of a `URLSearchParams` list. */
  datatype Param = Param(name: string, value: string)

  /** A parsed absolute URL. */
  datatype Url = Url(
    scheme: string,
    host: string,
    path: string,
    query: Option<string>,
    fragment: Option<string>)

  /** C0 control characters and space: the parser strips them from both ends of its input. */
  const C0OrSpace: set<char> := set c: char | c <= ' '

  /** Characters that cannot occur inside each component of a well-formed URL. */
  const SchemeStops: set<char> := C0OrSpace + {':'}
  const HostStops: set<char> := C0OrSpace + {'/', '?', '#'}
  const PathStops: set<char> := C0OrSpace + {'?', '#'}
  const QueryStops: set<char> := C0OrSpace + {'#'}
  const NameStops: set<char> := QueryStops + {'&', '='}
  const ValueStops: set<char> := QueryStops + {'&'}

  /** `s` holds no C0 control character and no space. */
  predicate Printable(s: string) {
    Free(s, C0OrSpace)
  }

  /** `s` without its leading and trailing C0 controls and spaces. */
  function StripControls(s: string): (r: string)
    ensures |r| <= |s|
    ensures s != [] && s[0] !in C0OrSpace && s[|s| - 1] !in C0OrSpace ==> r == s
  {
    if s == [] then s
    else if s[0] in C0OrSpace then StripControls(s[1..])
    else if s[|s| - 1] in C0OrSpace then StripControls(s[..|s| - 1])
    else s
  }

  /** Stripping leaves printable text alone. */
  lemma StripPrintable(s: string)
    requires s != [] && Printable(s)
    ensures StripControls(s) == s
  {
    FreeAt(s, C0OrSpace, 0);
    FreeAt(s, C0OrSpace, |s| - 1);
  }

  /** The shape of every URL the parser produces, and of every URL `Serialize` can be inverted on. */
  predicate WellFormed(u: Url) {
    && u.scheme != [] && Free(u.scheme, SchemeStops)
    && u.host != [] && Free(u.host, HostStops)
    && u.path != [] && u.path[0] == '/' && Free(u.path, PathStops)
    && (u.query.Some? ==> Free(u.query.value, QueryStops))
    && (u.fragment.Some? ==> Printable(u.fragment.value))
  }

  /**
   * `new URL(input)`: strip leading and trailing controls and spaces, then
   * split off the scheme at the first `:` (which must be followed by `//`),
   * the host up to the first `/`, `?` or `#`, the path up to the first `?`
   * or `#`, the query up to the first `#`, and the fragment. An empty path
   * becomes `/`. `None` stands for the thrown `TypeError`.
   */
  function Parse(input: string): (r: Option<Url>)
    ensures r.Some? ==> WellFormed(r.value)
  {
    var s := StripControls(input);
    var i := IndexOfAny(s, {':'});
    if !Printable(s) || i == 0 || !StartsWith(s[i..], "://") then None
    else
      FreePrefix(s, C0OrSpace, i);
      FreeUnion(s[..i], C0OrSpace, {':'});
      FreeSuffix(s, C0OrSpace, i + 3);
      ParseAuthority(s[..i], s[i + 3..])
  }

  /** The host, then the rest, of what follows `scheme://`; an empty host is refused. */
  function ParseAuthority(scheme: string, rest: string): (r: Option<Url>)
    requires scheme != [] && Free(scheme, SchemeStops) && Printable(rest)
    ensures r.Some? ==> WellFormed(r.value)
  {
    var h := IndexOfAny(rest, {'/', '?', '#'});
    if h == 0 then None
    else
      FreePrefix(rest, C0OrSpace, h);
      FreeUnion(rest[..h], C0OrSpace, {'/', '?', '#'});
      FreeSuffix(rest, C0OrSpace, h);
      Some(ParseTail(scheme, rest[..h], rest[h..]))
  }

  /** Path, query and fragment of what follows the host. */
  function ParseTail(scheme: string, host: string, tail: string): (u: Url)
    requires scheme != [] && Free(scheme, SchemeStops)
    requires host != [] && Free(host, HostStops)
    requires Printable(tail) && (tail == [] || tail[0] in {'/', '?', '#'})
    ensures WellFormed(u)
  {
    var p := IndexOfAny(tail, {'?', '#'});
    var path := tail[..p];
    var afterPath := tail[p..];
    var f := IndexOfAny(afterPath, {'#'});
    FreePrefix(tail, C0OrSpace, p);
    FreeUnion(path, C0OrSpace, {'?', '#'});
    FreeSuffix(tail, C0OrSpace, p);
    FreePrefix(afterPath, C0OrSpace, f);
    FreeUnion(afterPath[..f], C0OrSpace, {'#'});
    FreeSuffix(afterPath, C0OrSpace, f);
    assert Free("/", PathStops) by { assert "/"[1..] == []; }
    ComponentFree(afterPath[..f], QueryStops);
    ComponentFree(afterPath[f..], C0OrSpace);
    Url(scheme, host, if path == [] then "/" else path,
        Component(afterPath[..f]), Component(afterPath[f..]))
  }

  /** A component introduced by its marker character, or absent when there is no marker. */
  function Component(part: string): Option<string> {
    if part == [] then None else Some(part[1..])
  }

  lemma ComponentFree(part: string, cs: set<char>)
    requires Free(part, cs)
    ensures Component(part).Some? ==> Free(Component(part).value, cs)
  {
  }

  /** `marker + c` for a present component, nothing for an absent one. */
  function Part(marker: char, component: Option<string>): string {
    match component
    case None => []
    case Some(c) => [marker] + c
  }

  /** What follows the host in a serialised URL. */
  function TailOf(u: Url): string {
    u.path + Part('?', u.query) + Part('#', u.fragment)
  }

  /** `url.toString()`. */
  function Serialize(u: Url): string {
    u.scheme + "://" + u.host + TailOf(u)
  }

  lemma PartFree(marker: char, c: Option<string>, cs: set<char>)
    requires marker !in cs && (c.Some? ==> Free(c.value, cs))
    ensures Free(Part(marker, c), cs)
  {
    if c.Some? {
      assert Part(marker, c)[1..] == c.value;
    }
  }

  /** Every character of a well-formed URL's serialisation is printable. */
  lemma SerializePrintable(u: Url)
    requires WellFormed(u)
    ensures Printable(TailOf(u)) && Printable(u.host + TailOf(u)) && Printable(Serialize(u))
  {
    var q := Part('?', u.query);
    var fr := Part('#', u.fragment);
    var rest := u.host + TailOf(u);
    assert Printable(TailOf(u)) by {
      assert Printable(q) by {
        if u.query.Some? { FreeSubset(u.query.value, QueryStops, C0OrSpace); }
        PartFree('?', u.query, C0OrSpace);
      }
      PartFree('#', u.fragment, C0OrSpace);
      FreeSubset(u.path, PathStops, C0OrSpace);
      FreeConcat(u.path, q, C0OrSpace);
      FreeConcat(u.path + q, fr, C0OrSpace);
    }
    FreeSubset(u.host, HostStops, C0OrSpace);
    FreeConcat(u.host, TailOf(u), C0OrSpace);
    FreeSubset(u.scheme, SchemeStops, C0OrSpace);
    assert Printable("://") by {
      assert Free("/", C0OrSpace) by { assert "/"[1..] == []; }
      FreeCons('/', "/", C0OrSpace);
      FreeCons(':', "//", C0OrSpace);
      assert [':'] + ([ '/'] + "/") == "://";
    }
    FreeConcat(u.scheme, "://", C0OrSpace);
    FreeConcat(u.scheme + "://", rest, C0OrSpace);
    assert Serialize(u) == u.scheme + "://" + rest;
  }

  lemma ParseTailRoundTrip(u: Url)
    requires WellFormed(u)
    ensures Printable(TailOf(u))
    ensures ParseTail(u.scheme, u.host, TailOf(u)) == u
  {
    SerializePrintable(u);
    var q := Part('?', u.query);
    var fr := Part('#', u.fragment);
    var tail := TailOf(u);
    assert tail == u.path + (q + fr);
    assert IndexOfAny(tail, {'?', '#'}) == |u.path| && tail[..|u.path|] == u.path && tail[|u.path|..] == q + fr by {
      FreeSubset(u.path, PathStops, {'?', '#'});
      SplitAt(u.path, q + fr, {'?', '#'});
    }
    assert IndexOfAny(q + fr, {'#'}) == |q| && (q + fr)[..|q|] == q && (q + fr)[|q|..] == fr by {
      assert Free(q, {'#'}) by {
        if u.query.Some? { FreeSubset(u.query.value, QueryStops, {'#'}); }
        PartFree('?', u.query, {'#'});
      }
      SplitAt(q, fr, {'#'});
    }
    assert Component(q) == u.query by {
      if u.query.Some? { assert q[1..] == u.query.value; }
    }
    assert Component(fr) == u.fragment by {
      if u.fragment.Some? { assert fr[1..] == u.fragment.value; }
    }
  }

  lemma ParseAuthorityRoundTrip(u: Url)
    requires WellFormed(u)
    ensures Printable(u.host + TailOf(u))
    ensures ParseAuthority(u.scheme, u.host + TailOf(u)) == Some(u)
  {
    SerializePrintable(u);
    assert TailOf(u)[0] == '/';
    FreeSubset(u.host, HostStops, {'/', '?', '#'});
    SplitAt(u.host, TailOf(u), {'/', '?', '#'});
    ParseTailRoundTrip(u);
  }

  /** `toString()` followed by `new URL(...)` gives back every well-formed URL. */
  lemma ParseSerialize(u: Url)
    requires WellFormed(u)
    ensures Parse(Serialize(u)) == Some(u)
  {
    var rest := u.host + TailOf(u);
    assert Serialize(u) == u.scheme + ("://" + rest);
    SerializePrintable(u);
    ParseScheme(u.scheme, rest);
    ParseAuthorityRoundTrip(u);
  }

  /** Printable input made of a scheme, `://` and a rest is parsed by parsing the rest as an authority. */
  lemma ParseScheme(scheme: string, rest: string)
    requires scheme != [] && Free(scheme, SchemeStops)
    requires Printable(scheme + ("://" + rest))
    ensures Printable(rest)
    ensures Parse(scheme + ("://" + rest)) == ParseAuthority(scheme, rest)
  {
    var s := scheme + ("://" + rest);
    StripPrintable(s);
    assert IndexOfAny(s, {':'}) == |scheme| && s[..|scheme|] == scheme && s[|scheme|..] == "://" + rest by {
      FreeSubset(scheme, SchemeStops, {':'});
      SplitAt(scheme, "://" + rest, {':'});
    }
    assert StartsWith(s[|scheme|..], "://") by {
      assert ("://" + rest)[..3] == "://";
    }
    assert s[|scheme| + 3..] == rest by {
      assert ("://" + rest)[3..] == rest;
    }
    FreeSuffix(s, C0OrSpace, |scheme| + 3);
  }

  /** `URLSearchParams`' split of one `&`-separated piece at its first `=`. */
  function ParseParam(piece: string): (p: Param)
    ensures Free(piece, ValueStops) ==> WellFormedParam(p)
  {
    var j := IndexOfAny(piece, {'='});
    if j < |piece| then
      assert Free(piece, ValueStops) ==> Free(piece[..j], NameStops) && Free(piece[j + 1..], ValueStops) by {
        if Free(piece, ValueStops) {
          FreePrefix(piece, ValueStops, j);
          FreeUnion(piece[..j], ValueStops, {'='});
          assert ValueStops + {'='} == NameStops;
          FreeSuffix(piece, ValueStops, j + 1);
        }
      }
      Param(piece[..j], piece[j + 1..])
    else
      assert Free(piece, ValueStops) ==> Free(piece, NameStops) by {
        if Free(piece, ValueStops) {
          assert piece[..j] == piece;
          FreeUnion(piece, ValueStops, {'='});
          assert ValueStops + {'='} == NameStops;
        }
      }
      Param(piece, [])
  }

  /** What `ParseQuery` can produce and `SerializeQuery` can be inverted on. */
  predicate WellFormedParam(p: Param) {
    Free(p.name, NameStops) && Free(p.value, ValueStops)
  }

  predicate AllWellFormed(ps: seq<Param>) {
    forall p | p in ps :: WellFormedParam(p)
  }

  /**
   * The `URLSearchParams` list of a query: its `&`-separated pieces in
   * order, empty pieces skipped, each split at its first `=`.
   */
  function ParseQuery(q: string): (ps: seq<Param>)
    ensures Free(q, QueryStops) ==> AllWellFormed(ps)
    decreases |q|
  {
    var i := IndexOfAny(q, {'&'});
    assert Free(q, QueryStops) ==> Free(q[..i], ValueStops) by {
      if Free(q, QueryStops) {
        FreePrefix(q, QueryStops, i);
        FreeUnion(q[..i], QueryStops, {'&'});
      }
    }
    var rest := if i < |q| then
                  (assert Free(q, QueryStops) ==> Free(q[i + 1..], QueryStops) by {
                     if Free(q, QueryStops) { FreeSuffix(q, QueryStops, i + 1); }
                   }
                   ParseQuery(q[i + 1..]))
                else [];
    if i == 0 then rest else [ParseParam(q[..i])] + rest
  }

  /** `name=value`. */
  function SerializeParam(p: Param): (s: string)
    ensures WellFormedParam(p) ==> Free(s, ValueStops)
  {
    assert WellFormedParam(p) ==> Free(p.name + "=" + p.value, ValueStops) by {
      if WellFormedParam(p) {
        FreeSubset(p.name, NameStops, ValueStops);
        assert Free("=", ValueStops) by { assert "="[1..] == []; }
        FreeConcat(p.name, "=", ValueStops);
        FreeConcat(p.name + "=", p.value, ValueStops);
      }
    }
    p.name + "=" + p.value
  }

  /** The `URLSearchParams` serialisation: the entries' `name=value`, joined by `&`. */
  function SerializeQuery(ps: seq<Param>): (q: string)
    ensures q == [] <==> ps == []
    ensures AllWellFormed(ps) ==> Free(q, QueryStops)
  {
    if ps == [] then []
    else if |ps| == 1 then
      assert AllWellFormed(ps) ==> Free(SerializeParam(ps[0]), QueryStops) by {
        if AllWellFormed(ps) {
          AllWellFormedTail(ps);
          FreeSubset(SerializeParam(ps[0]), ValueStops, QueryStops);
        }
      }
      SerializeParam(ps[0])
    else
      var head := SerializeParam(ps[0]);
      var tail := SerializeQuery(ps[1..]);
      assert AllWellFormed(ps) ==> Free(head + "&" + tail, QueryStops) by {
        if AllWellFormed(ps) {
          AllWellFormedTail(ps);
          FreeSubset(head, ValueStops, QueryStops);
          assert Free("&", QueryStops) by { assert "&"[1..] == []; }
          FreeConcat(head, "&", QueryStops);
          FreeConcat(head + "&", tail, QueryStops);
        }
      }
      assert |head| > 0 by {
        assert head == ps[0].name + "=" + ps[0].value;
      }
      head + "&" + tail
  }

  /** Splitting `name=value` at its first `=` gives back the entry. */
  lemma ParamRoundTrip(p: Param)
    requires WellFormedParam(p)
    ensures ParseParam(SerializeParam(p)) == p
    ensures Free(SerializeParam(p), {'&'})
  {
    var head := SerializeParam(p);
    assert head == p.name + ("=" + p.value);
    FreeSubset(p.name, NameStops, {'='});
    SplitAt(p.name, "=" + p.value, {'='});
    assert ("=" + p.value)[1..] == p.value;
    FreeSubset(head, ValueStops, {'&'});
  }

  lemma AllWellFormedTail(ps: seq<Param>)
    requires ps != [] && AllWellFormed(ps)
    ensures WellFormedParam(ps[0]) && AllWellFormed(ps[1..])
  {
    assert ps[0] in ps;
    forall p | p in ps[1..] ensures WellFormedParam(p) {
      assert p in ps;
    }
  }

  /** A query whose first `&` closes a non-empty piece starts with that piece's entry. */
  lemma ParseQueryCons(a: string, b: string)
    requires a != [] && Free(a, {'&'})
    ensures ParseQuery(a + "&" + b) == [ParseParam(a)] + ParseQuery(b)
  {
    var q := a + "&" + b;
    assert q == a + ("&" + b);
    SplitAt(a, "&" + b, {'&'});
    assert q[|a| + 1..] == b by {
      assert ("&" + b)[1..] == b;
    }
  }

  /** The first `&` of a joined query ends its first entry. */
  lemma QuerySplit(ps: seq<Param>)
    requires |ps| > 1 && AllWellFormed(ps)
    ensures ParseQuery(SerializeQuery(ps)) == [ParseParam(SerializeParam(ps[0]))] + ParseQuery(SerializeQuery(ps[1..]))
  {
    AllWellFormedTail(ps);
    ParamRoundTrip(ps[0]);
    var head := SerializeParam(ps[0]);
    assert |head| > 0 by {
      assert head == ps[0].name + "=" + ps[0].value;
    }
    ParseQueryCons(head, SerializeQuery(ps[1..]));
  }

  /** Serialising well-formed entries and parsing them back gives the same list. */
  lemma {:induction false} QueryRoundTrip(ps: seq<Param>)
    requires AllWellFormed(ps)
    ensures ParseQuery(SerializeQuery(ps)) == ps
  {
    if |ps| == 1 {
      QuerySingle(ps);
    } else if ps != [] {
      AllWellFormedTail(ps);
      ParamRoundTrip(ps[0]);
      QuerySplit(ps);
      QueryRoundTrip(ps[1..]);
      assert [ps[0]] + ps[1..] == ps;
    }
  }

  /** A one-entry list reads back from its `name=value`. */
  lemma QuerySingle(ps: seq<Param>)
    requires |ps| == 1 && AllWellFormed(ps)
    ensures ParseQuery(SerializeQuery(ps)) == ps
  {
    AllWellFormedTail(ps);
    var head := SerializeParam(ps[0]);
    ParamRoundTrip(ps[0]);
    assert IndexOfAny(head, {'&'}) == |head| by {
      IndexOfAnyConcat(head, [], {'&'});
      assert head + [] == head;
    }
    assert head[..|head|] == head;
    assert |head| > 0 by {
      assert head == ps[0].name + "=" + ps[0].value;
    }
  }

  /** The `URLSearchParams` list of a URL's query; empty when it has none. */
  function QueryParams(u: Url): seq<Param> {
    match u.query
    case None => []
    case Some(q) => ParseQuery(q)
  }

  /**
   * The URL after its `searchParams` list has become `ps`: the query is
   * the list's serialisation, or absent when that is empty.
   */
  function WithParams(u: Url, ps: seq<Param>): Url {
    var q := SerializeQuery(ps);
    u.(query := if q == [] then None else Some(q))
  }

  /** Replacing the list keeps a URL well formed, and the new list is what its query reads as. */
  lemma WithParamsRoundTrip(u: Url, ps: seq<Param>)
    requires WellFormed(u) && AllWellFormed(ps)
    ensures WellFormed(WithParams(u, ps))
    ensures QueryParams(WithParams(u, ps)) == ps
  {
    QueryRoundTrip(ps);
  }

  /** Only the last replacement of the list counts. */
  lemma WithParamsTwice(u: Url, ps: seq<Param>, qs: seq<Param>)
    ensures WithParams(WithParams(u, ps), qs) == WithParams(u, qs)
  {
  }

  /** `searchParams.delete(name)` on the list: every entry called `name` is removed. */
  function DeleteParam(ps: seq<Param>, name: string): (r: seq<Param>)
    ensures forall p :: p in r <==> p in ps && p.name != name
    ensures AllWellFormed(ps) ==> AllWellFormed(r)
  {
    if ps == [] then []
    else (if ps[0].name == name then [] else [ps[0]]) + DeleteParam(ps[1..], name)
  }
}

=== FILE: wrappers.dfy ===
/** Optional values: JavaScript's `undefined`/`null` alternatives. */
module Wrappers {

  datatype Option<+T> = None | Some(value: T)
}
